=== FILE: README.md ===
# Boot download control plane of the shared-memory modem link

This project models the boot-time control plane of the extension-operations
backend of the Samsung shared-memory modem link (PLD/DPRAM). The model covers:

- **Qualcomm modems (MDM6600 / ESC6270).** The host downloads a boot binary
  or NV data into the modem frame by frame. A sequencer advances once per
  run of the download tasklet, which the modem's frame acknowledgement
  (`0xDBAB`) schedules; acknowledgements that arrive before it runs collapse
  into one step. The model also covers:
  - the bounded waits of the `PHONE_POWON`, `PHONEIMG_LOAD`, `NVDATA_LOAD`
    and `PHONE_BOOTSTART` ioctls;
  - the two-step SDRAM upload handshake;
  - the interrupt-enable bookkeeping around the upload;
  - the INIT_END mask sent when the modem reports boot start.
- **VIA CBP82.** The boot map and download map layouts, and the response
  classification of the single-frame transfer `cbp_xmit_binary`.
- **The vendor operation table** and its lookup `pld_get_ext_op`.

The model is pure and functional. The link is an immutable `QcLink.Link`
record: board data, the current boot map, the sequencer globals
(`qc_udl_check` and `qc_udl_param`), the tasklet-pending flag, the
boot-start latch, the interrupt-disable depth, whether the image copy is
allocated, and the trace of hardware effects. Each ioctl returns the new
record, the C return value, and the struct copied back to user space.

What the modem or the interrupt path does during a wait is an input. It is a
sequence indexed by the number of the check, and `Poll` explains how checks
are counted. The counters are `unsigned int` and are modelled with explicit
32-bit wrap-around (`Common.Wrap32`). The frame fields written with
`iowrite16` are 16 bits wide; `Common.Trunc16` gives the value that lands in
the register. `Sequencer.WireCountsConsecutive` and
`Sequencer.WireSizeAndTagExact` say what the registers hold. The trace itself
records the `unsigned int` values of the parameters.

Modules:

| file | module | contents |
|---|---|---|
| common.dfy | Common | `U16`/`U32`, wrap-around, division lemmas, errno values, `Option` |
| poll.dfy | Poll | latch polls and mailbox handshakes with their check budgets |
| boot_map.dfy | BootMap | Qualcomm download/upload maps, VIA CBP boot and download maps |
| chunks.dfy | Chunks | reference split of an image into capped frames |
| sequencer.dfy | Sequencer | counters, `_qc_do_download`, download set-up, `qc_dload_task`, transfer theorems |
| run_algebra.dfy | RunAlgebra | tasklet runs compose: `a` runs then `b` runs end where `a + b` runs do |
| qc_link.dfy | QcLink | link state, command handler, tasklet, ioctl entry points, upload, IRQ depth |
| cbp.dfy | Cbp | `cbp_udl_wait_resp` and `cbp_xmit_binary` |
| ext_op.dfy | ExtOp | `ext_op_set` for a build configuration and `pld_get_ext_op` |

All source paths below are in `drivers/misc/modem_if/modem_link_device_pld_ext_op.c`.

## Model

| member | source | states |
|---|---|---|
| Poll.LatchPoll | drivers/misc/modem_if/modem_link_device_pld_ext_op.c:198-211 | a latch wait succeeds iff the latch is set at one of the checks 0..limit (limit + 1 checks), and reports the first check that saw it |
| Poll.SilentPeerTimesOut | drivers/misc/modem_if/modem_link_device_pld_ext_op.c:198-211 | if the latch is never raised, the wait times out |
| Poll.LatchLeft | drivers/misc/modem_if/modem_link_device_pld_ext_op.c:198-211 | what a latch wait leaves in the latch: clear when it saw the latch (it consumes it); after a timeout, set iff the latch was raised during the final sleep, which no check observes |
| Poll.LateRaiseMissed | drivers/misc/modem_if/modem_link_device_pld_ext_op.c:204-210 | a raise that comes after the last check is not observed, and it stays set in the latch after the timeout |
| Poll.LastCheckCounts | drivers/misc/modem_if/modem_link_device_pld_ext_op.c:204-210 | a raise just before check `limit` is still observed, because the bound test is `count > limit` |
| Poll.AwaitCode | drivers/misc/modem_if/modem_link_device_pld_ext_op.c:455-473 | the first pending mailbox code within limit + 1 checks decides: the expected code matches, any other code is a mismatch, and no pending code at all is a timeout |
| Poll.AwaitCodeWithLastRead | drivers/misc/modem_if/modem_link_device_pld_ext_op.c:509-531 | like AwaitCode, plus one mailbox read after the budget runs out; if that read holds the expected code it still counts as a match, at check limit + 1 |
| Poll.CodeAtLastCheck | drivers/misc/modem_if/modem_link_device_pld_ext_op.c:466-472 | the expected code pending at the last check of the 200-sleep loop is still taken |
| Poll.CodeAfterLastCheck | drivers/misc/modem_if/modem_link_device_pld_ext_op.c:466-472 | a code that turns up only after the last check is not taken by the loop |
| Poll.MismatchLooksLikeTimeout | drivers/misc/modem_if/modem_link_device_pld_ext_op.c:455-473 | a wrong code and a silent peer both give -1 |
| BootMap.DloadMap | drivers/misc/modem_if/modem_link_device_pld_ext_op.c:169-189 | direction byte 1 selects the receive queue and puts the size, tag and count fields at the base plus the board's offsets plus 0x1000; any other value selects the transmit queue and puts them at the base plus the board's offsets |
| BootMap.UploadMapIsShiftedDownloadMap | drivers/misc/modem_if/modem_link_device_pld_ext_op.c:169-189 | the upload map is the download map with every field moved up by 0x1000 and the buffer swapped to the receive queue; nothing else differs |
| BootMap.OnlyOneMeansUpload | drivers/misc/modem_if/modem_link_device_pld_ext_op.c:175-181 | every direction byte other than 1 gives the download map |
| BootMap.FieldSpacingIndependentOfDirection | drivers/misc/modem_if/modem_link_device_pld_ext_op.c:183-188 | the distances between the size, tag and count fields are the board's offsets, in both directions |
| BootMap.InitBootMap | drivers/misc/modem_if/modem_link_device_pld_ext_op.c:156-165 | the map set up at probe time uses the transmit queue and is the download map |
| BootMap.InitIsDownloadMap | drivers/misc/modem_if/modem_link_device_pld_ext_op.c:156-167 | the map set up at probe time is the download map |
| BootMap.CbpInitBootMap | drivers/misc/modem_if/modem_link_device_pld_ext_op.c:35-42 | the magic word is at the base, the buffer is at the boot-buffer offset, and the space is the region size less 4 |
| BootMap.CbpInitDlMap | drivers/misc/modem_if/modem_link_device_pld_ext_op.c:44-48 | the magic word is at the base, the buffer is at the download-buffer offset, and the space field is unchanged |
| BootMap.CbpMapsShareMagic | drivers/misc/modem_if/modem_link_device_pld_ext_op.c:35-48 | the two CBP maps share the magic word and their buffers differ by the difference of the two offsets |
| Sequencer.DoDownload | drivers/misc/modem_if/modem_link_device_pld_ext_op.c:216-242 | a frame goes out iff its size is at most the board cap, and it carries exactly the parameters' address, size, tag and count |
| Sequencer.Begin | drivers/misc/modem_if/modem_link_device_pld_ext_op.c:267-284 | after the set-up the counters are balanced over the whole image with nothing sent, completion is clear, and the other latches are untouched. The frame sent is exactly offset 0, min(size, cap) bytes, the kind's tag and the kind's first count (1 for NV data, the caller's count for a binary); it is always sent |
| Sequencer.Step | drivers/misc/modem_if/modem_link_device_pld_ext_op.c:325-346 | one tasklet run keeps the total and the other latches, and keeps exact balance when the frame fits what is left. Completion is set afterwards iff it was already set or the sent count reaches the total; the tag is then cleared and nothing is sent. Otherwise the count goes up by one (mod 2^32), the tag is kept, and the next frame follows on directly and is sent if it fits the cap |
| Sequencer.StepKeepsBalance32 | drivers/misc/modem_if/modem_link_device_pld_ext_op.c:329-330 | whatever the state, a tasklet run keeps sent + rest == total modulo 2^32 |
| Sequencer.Run | drivers/misc/modem_if/modem_link_device_pld_ext_op.c:325-346 | over any number of tasklet runs: at most one frame per run, the total is unchanged, balance mod 2^32 is kept, and a set completion latch stays set |
| Sequencer.RunKeepsLatches | drivers/misc/modem_if/modem_link_device_pld_ext_op.c:325-346 | tasklet runs never change copy_start or boot_complete |
| Sequencer.StepInFlight | drivers/misc/modem_if/modem_link_device_pld_ext_op.c:329-345 | acknowledging a frame that is not the last keeps the transfer in flight: remaining drops by the cap, the address advances by the cap, the count goes up by one, and the next frame is sent |
| Sequencer.StepCompletes | drivers/misc/modem_if/modem_link_device_pld_ext_op.c:329-338 | acknowledging the last frame sets completion, counts every byte as sent, leaves nothing remaining, clears the tag and sends nothing |
| Sequencer.RunInFlightCompletes | drivers/misc/modem_if/modem_link_device_pld_ext_op.c:325-346 | from any in-flight state, one acknowledgement per remaining frame of the reference split completes the transfer |
| Sequencer.RunInFlightFrames | drivers/misc/modem_if/modem_link_device_pld_ext_op.c:325-346 | those acknowledgements send exactly the remaining frames of the reference split, laid end to end |
| Sequencer.RunInFlightNotEarly | drivers/misc/modem_if/modem_link_device_pld_ext_op.c:334-338 | completion stays clear until the last frame is acknowledged |
| Sequencer.Transfer | drivers/misc/modem_if/modem_link_device_pld_ext_op.c:267-346 | a fully acknowledged download sends the reference split of the image from offset 0, with the kind's tag and consecutive counts. It completes after exactly as many acknowledgements as frames and not before, with all bytes sent and the tag cleared |
| Sequencer.AckedTransferFrames | drivers/misc/modem_if/modem_link_device_pld_ext_op.c:267-346 | the frames of an acknowledged download, stated without the reference split: ceil(size/cap) of them (one empty frame for an empty image); lengths sum to the size; each fits the cap; all but the last are full; the last is the remainder; they tile the image from offset 0; the counts run up by one |
| Sequencer.WireCountsConsecutive | drivers/misc/modem_if/modem_link_device_pld_ext_op.c:234-236 | the 16-bit count field of frame k reads (first count + k) mod 2^16 |
| Sequencer.WireSizeAndTagExact | drivers/misc/modem_if/modem_link_device_pld_ext_op.c:226-232 | when the board's frame cap is below 2^16, the 16-bit size and tag fields of every frame of an acknowledged download hold the frame's length and tag without truncation |
| RunAlgebra.RunCompose | drivers/misc/modem_if/modem_link_device_pld_ext_op.c:325-346 | `a` tasklet runs followed by `b` more end in the same sequencer state as `a + b` runs |
| Sequencer.InFlightFrameFits | drivers/misc/modem_if/modem_link_device_pld_ext_op.c:221 | while a transfer is in flight the size guard of `_qc_do_download` never rejects a frame, and a frame that is not the last keeps the transfer in flight |
| Sequencer.StrayAckAfterCompletion | drivers/misc/modem_if/modem_link_device_pld_ext_op.c:329-337 | an acknowledgement after completion sends nothing and keeps the latch set and the tag clear, but rest_size wraps around to 2^32 - size; only balance mod 2^32 holds |
| Sequencer.ExampleFullFrames | drivers/misc/modem_if/modem_link_device_pld_ext_op.c:267-346 | a 4096-byte image with a 1024-byte cap goes out as four full frames |
| Sequencer.ExampleShortLastFrame | drivers/misc/modem_if/modem_link_device_pld_ext_op.c:267-346 | a 1500-byte image with a 1024-byte cap goes out as 1024 bytes, then 476 |
| Chunks.SplitCount | drivers/misc/modem_if/modem_link_device_pld_ext_op.c:280-281 | the reference split of a non-empty image has ceil(size / cap) frames; an empty image has one |
| Chunks.SplitLast | drivers/misc/modem_if/modem_link_device_pld_ext_op.c:340-341 | the last frame of the split is the remainder, or a full frame when the cap divides the size |
| QcLink.InitLink | drivers/misc/modem_if/modem_link_device_pld_ext_op.c:156-167 | at probe time the download map is installed and the tasklet is not scheduled; nothing else changes |
| QcLink.DloadCmdHandler | drivers/misc/modem_if/modem_link_device_pld_ext_op.c:348-367 | 0x1234 raises copy_start only, 0xABCD raises boot_complete only, and 0xDBAB only schedules the tasklet; any other code leaves the link unchanged |
| QcLink.FrameAckRunsOneStep | drivers/misc/modem_if/modem_link_device_pld_ext_op.c:355-356 | two acknowledgements before the tasklet runs cause only one sequencer step |
| QcLink.UnknownCommandIgnored | drivers/misc/modem_if/modem_link_device_pld_ext_op.c:364-365 | an unrecognised code changes no latch, counter or pending tasklet |
| QcLink.DloadTask | drivers/misc/modem_if/modem_link_device_pld_ext_op.c:325-346 | the tasklet performs one sequencer step and sends its frame, if any, through the current map; nothing else changes |
| QcLink.DisableIrq | drivers/misc/modem_if/modem_link_device_pld_ext_op.c:612 | `disable_irq_nosync` makes the interrupt disabled one level deeper and changes nothing else |
| QcLink.EnableIrq | drivers/misc/modem_if/modem_link_device_pld_ext_op.c:615 | enabling undoes one disable; on a line that is already enabled the depth stays 0 |
| QcLink.EnableUndoesDisable | drivers/misc/modem_if/modem_link_device_pld_ext_op.c:612-615 | a disable followed by an enable restores the link |
| QcLink.PrepareDownload | drivers/misc/modem_if/modem_link_device_pld_ext_op.c:191-213 | returns 0 iff copy_start is seen within 1001 checks, else -1. It installs the download map and changes nothing else but copy_start, which a success consumes and a timeout leaves set iff the modem raised it during the final sleep |
| QcLink.PrepareBudget | drivers/misc/modem_if/modem_link_device_pld_ext_op.c:198-210 | copy_start raised before the 1001st check is seen; raised one sleep later, the call fails with -1, the latch stays set, and the next prepare succeeds at once |
| QcLink.CopyStartReleasesPrepare | drivers/misc/modem_if/modem_link_device_pld_ext_op.c:199-202 | after the modem's 0x1234 reaches the command handler, the prepare wait succeeds |
| QcLink.AwaitCopy | drivers/misc/modem_if/modem_link_device_pld_ext_op.c:293-308 | the completion wait returns 0 or -1; a success consumes copy_complete; only the sequencer state and the trace change, and copy_start and boot_complete are kept |
| QcLink.AwaitCopyOutcome | drivers/misc/modem_if/modem_link_device_pld_ext_op.c:293-308 | the wait returns 0 iff the tasklet runs before some check j in 0..limit complete the transfer, and then the trace is the one at the first such check; on a timeout the link is the one after every run, including those in the final sleep |
| QcLink.AwaitCopyAtLimit | drivers/misc/modem_if/modem_link_device_pld_ext_op.c:293-308 | because completion, once set, stays set, the wait succeeds iff the transfer is complete at the last check |
| QcLink.CompleteByMonotone | drivers/misc/modem_if/modem_link_device_pld_ext_op.c:332-337 | a transfer complete by check j is complete by every later check |
| QcLink.RunsAccumulate | drivers/misc/modem_if/modem_link_device_pld_ext_op.c:325-346 | the tasklet runs before check j + 1, applied to the state at check j, give the state at check j + 1 |
| QcLink.DownloadSetUp | drivers/misc/modem_if/modem_link_device_pld_ext_op.c:259-286 | the set-up marks the image allocated, covers the whole image with nothing sent, keeps copy_start and boot_complete, sends exactly one frame (offset 0, min(size, cap) bytes, the kind's tag and first count), and with a non-zero cap leaves the transfer in flight; nothing else changes |
| QcLink.Download | drivers/misc/modem_if/modem_link_device_pld_ext_op.c:244-313 | a failed allocation returns -1 and changes nothing. Otherwise the result is 0 or -1, the image is freed, and a success consumes copy_complete. Only the sequencer state, the image allocation and the trace change: copy_start, boot_complete, the boot-start latch, the pending tasklet, the map and the IRQ depth are kept |
| QcLink.DownloadOutcome | drivers/misc/modem_if/modem_link_device_pld_ext_op.c:267-310 | after the set-up, the download returns 0 iff the tasklet completes the transfer before some check within the kind's budget; on a timeout the sequencer is where every tasklet run left it |
| QcLink.DownloadBudget | drivers/misc/modem_if/modem_link_device_pld_ext_op.c:288-310 | with enough acknowledgements arriving just before check `limit`, the download succeeds; arriving one sleep later, it fails with -1 and copy_complete stays set |
| QcLink.NvBudget | drivers/misc/modem_if/modem_link_device_pld_ext_op.c:288-292 | for NV data the completion must be seen by the check after 200 sleeps; one sleep later is a timeout |
| QcLink.BinBudget | drivers/misc/modem_if/modem_link_device_pld_ext_op.c:288-292 | for a binary image the completion must be seen by the check after 1000 sleeps; one sleep later is a timeout |
| QcLink.DownloadUnacknowledged | drivers/misc/modem_if/modem_link_device_pld_ext_op.c:284-312 | with no acknowledgement the download returns -1 after sending only the first frame, and the sequencer still describes that frame |
| QcLink.DownloadAllAcknowledged | drivers/misc/modem_if/modem_link_device_pld_ext_op.c:244-346 | when every frame is acknowledged before the first check, the download returns 0, the trace gains exactly the acknowledged transfer (frame plus 0xDB12 per frame), and completion is consumed |
| QcLink.LateAckAfterTimeout | drivers/misc/modem_if/modem_link_device_pld_ext_op.c:310-345 | after a timed-out download of a multi-frame image, a late acknowledgement still sends a frame, read from the image that has already been freed |
| QcLink.BootStart | drivers/misc/modem_if/modem_link_device_pld_ext_op.c:369-394 | sends 0x4567, then returns 0 iff boot_complete is seen within 201 checks, else -1. A success consumes the latch; a timeout leaves it set iff it was raised during the final sleep; nothing else changes |
| QcLink.BootStartBudget | drivers/misc/modem_if/modem_link_device_pld_ext_op.c:378-390 | boot_complete raised before the 201st check is seen; one sleep later the call fails with -1 and the latch stays set |
| QcLink.BootCompleteReleasesBootStart | drivers/misc/modem_if/modem_link_device_pld_ext_op.c:379-382 | after the modem's 0xABCD reaches the command handler, the boot-start wait succeeds |
| QcLink.BootPostProcess | drivers/misc/modem_if/modem_link_device_pld_ext_op.c:396-416 | returns 0 iff the boot-start latch is seen within 201 checks, else -1. A success consumes the latch; a timeout leaves it set iff it was raised during the final sleep; nothing else changes |
| QcLink.PostProcessBudget | drivers/misc/modem_if/modem_link_device_pld_ext_op.c:400-412 | the boot-start latch raised before the 201st check is seen; one sleep later the call fails with -1 and the latch stays set |
| QcLink.StartHandler | drivers/misc/modem_if/modem_link_device_pld_ext_op.c:418-432 | raises the boot-start latch and sends exactly the mask 0x11C2 |
| QcLink.StartHandlerReleasesPostProcess | drivers/misc/modem_if/modem_link_device_pld_ext_op.c:400-404 | once the boot-start handler has run, the post-process wait succeeds |
| QcLink.UploadStep1 | drivers/misc/modem_if/modem_link_device_pld_ext_op.c:496-537 | installs the upload map, then returns 0 iff 0x1234 arrives within the budget or on the last read, and only then sends 0xDEAD; on failure it returns -1 and sends nothing |
| QcLink.DataUpload | drivers/misc/modem_if/modem_link_device_pld_ext_op.c:447-494 | returns 0 iff 0xDBAB is the first pending code. It then hands back the modem's size, tag and count, copies size bytes to the caller's address and acknowledges with 0xDB12. On failure it returns -1 and touches nothing |
| QcLink.UploadBudget | drivers/misc/modem_if/modem_link_device_pld_ext_op.c:466-472 | both upload handshakes allow 200 sleeps: a code pending at the check after the 200th sleep succeeds. For step 2 one sleep later fails; step 1 still takes the expected code from its extra mailbox read (:521-529) and fails otherwise |
| QcLink.UploadStep2 | drivers/misc/modem_if/modem_link_device_pld_ext_op.c:539-571 | returns 0 iff the frame handshake matches. On success the caller gets back its own address with the modem's size, tag and count; the trace gains the copy of size bytes from the upload buffer and the 0xDB12 acknowledgement; tag 4 re-enables the interrupt and other tags leave it alone; nothing else changes. A failure returns -1 and changes nothing |
| QcLink.Ioctl | drivers/misc/modem_if/modem_link_device_pld_ext_op.c:573-635 | unknown commands give -EINVAL and change nothing; every known command gives 0 or -1; the download commands are the download with the kind's tag; only the upload commands touch the IRQ depth |
| QcLink.BootStartThenPostProcess | drivers/misc/modem_if/modem_link_device_pld_ext_op.c:598-609 | boot start succeeds iff both waits see their latch; a boot-start timeout skips the post-process wait and leaves its latch alone |
| QcLink.UploadStep1IrqBalance | drivers/misc/modem_if/modem_link_device_pld_ext_op.c:611-618 | step 1 leaves the interrupt disabled one level deeper iff it succeeds; a failure restores the depth |
| QcLink.UploadStep2IrqBalance | drivers/misc/modem_if/modem_link_device_pld_ext_op.c:620-626 | step 2 re-enables on failure and on the final frame, and leaves the depth alone otherwise |
| QcLink.UploadSessionRestoresIrq | drivers/misc/modem_if/modem_link_device_pld_ext_op.c:559-562 | a full upload session (step 1 succeeds, every frame arrives, only the last carries tag 4) ends with the IRQ depth it started with |
| Cbp.WaitResp | drivers/misc/modem_if/modem_link_device_pld_ext_op.c:61-72 | the result is negative iff the wait expired, and then it is -EIO; otherwise it is the 16-bit mailbox value |
| Cbp.Writes | drivers/misc/modem_if/modem_link_device_pld_ext_op.c:81-85 | no write without a request code; otherwise the request code is written last, after at most one payload write, and min(len, cap) payload bytes go out; a zero-length frame writes no payload |
| Cbp.XmitBinary | drivers/misc/modem_if/modem_link_device_pld_ext_op.c:74-102 | the result is unspecified iff no response is expected. Otherwise it is -EIO on timeout, the buffer length (converted to `int`) on the expected code, and -EAGAIN on any other code |
| Cbp.XmitSucceedsIffAnswered | drivers/misc/modem_if/modem_link_device_pld_ext_op.c:88-98 | for a buffer an `int` can hold, the result is non-negative iff the modem answered with the expected code, and it is then the buffer length |
| Cbp.XmitFailuresDistinct | drivers/misc/modem_if/modem_link_device_pld_ext_op.c:88-98 | -EIO iff the wait expired; -EAGAIN iff a wrong code arrived |
| Cbp.HugeBufferLooksLikeFailure | drivers/misc/modem_if/modem_link_device_pld_ext_op.c:92-93 | a buffer of 2^31 bytes or more gives a negative result even on a match |
| Cbp.PayloadBounded | drivers/misc/modem_if/modem_link_device_pld_ext_op.c:81-83 | the bytes written never exceed the cap or the frame length, and equal min(len, cap) when a request is present |
| Cbp.MailboxWrittenIffRequest | drivers/misc/modem_if/modem_link_device_pld_ext_op.c:81-85 | the mailbox is written iff the request is non-zero, and the writes do not depend on the response |
| ExtOp.Table | drivers/misc/modem_if/modem_link_device_pld_ext_op.c:638-669 | the table reaches one past the largest compiled-in index (it is empty when nothing is compiled in), and each slot is its vendor's entry or zero-filled |
| ExtOp.GetExtOp | drivers/misc/modem_if/modem_link_device_pld_ext_op.c:671-677 | the lookup returns the slot iff its exist flag is set, and nothing otherwise |
| ExtOp.LookupFindsCompiledVendor | drivers/misc/modem_if/modem_link_device_pld_ext_op.c:638-677 | any index in range gives the Qualcomm or CBP operations iff that vendor is compiled in under that index, and nothing otherwise |
| ExtOp.CompiledVendorsReachable | drivers/misc/modem_if/modem_link_device_pld_ext_op.c:638-677 | every compiled-in vendor's index is in range, and the lookup yields that vendor's operations |

## Left out

- Hardware access is left out. This covers the MMIO windowing through the
  address buffer, `iowrite16`/`ioread16`, the `memcpy` into and out of the
  shared region, and `_pld_read_register`/`_pld_write_register`. Effects
  appear as a trace of frames, copies and interrupt codes sent.
- Sleeps are left out. So are the wall-clock meaning of the check budgets and
  the timing of the tasklet and interrupt paths. What happens between checks
  is an input.
- `copy_from_user` is modelled as always succeeding, because its `< 0` test
  can never fire: it returns a count of bytes not copied. `copy_to_user` in
  upload step 2 is treated the same way. The model therefore does not cover
  the case where that positive count becomes the return value.
- `vmalloc` failure is a boolean input. On the kernels this driver targets,
  a zero-byte allocation also fails, and then the empty-image path below is
  not reached.
- `dev_kfree_skb_any` is left out. `cbp_xmit_binary` frees the socket buffer
  at :100 after every transfer, and the model has no buffer ownership.
- The debug helper `print_data`, `qc_crash_log` and all logging are left
  out; they only read memory and print.
- `cbp_xmit_DL_Magic` is left out. It writes a constant magic word from a
  header that is not part of this model.
- Header constants are parameters. These are `MAX_SEND_SIZE`, the CBP
  buffer offsets, the board's field offsets and frame cap, the ioctl numbers
  and the `enum modem_t` values.
- The QC boot-map initialiser also runs `tasklet_init`. This is modelled only
  as "not scheduled".
- Concurrency is left out. During a wait only the awaited latch changes (or,
  in the download wait, only tasklet runs happen), between two checks or
  during the final sleep after the last check. Other command codes arriving
  during a wait are not modelled: in the driver a `0x1234` or `0xABCD`
  arriving during the download wait would set copy_start or boot_complete,
  so `QcLink.Download` keeps those latches only as far as its own code goes.
  A latch raised in that final sleep is left set after the timeout, as the
  source leaves it. The same holds for copy_complete when the tasklet
  completes the transfer in that final sleep. `QcLink.Download` therefore
  promises a clear copy_complete only on success. The driver keeps one
  global sequencer and boot map shared by all links; the model keeps them in
  the link record, which matches the driver only while a single link runs a
  download or upload.
- QcLink.DownloadOutcome: the completion wait sees the tasklet runs as a
  count accumulated from the start of the wait. It does not model a tasklet
  run interleaved with the read of copy_complete inside one check.
- Sequencer.DoDownload: the trace records the `unsigned int` size, tag and
  count. When a board's frame cap is 2^16 or more, the 16-bit size register
  holds the size mod 2^16, and the model states that only through
  `Common.Trunc16`.
- BootMap.CbpInitBootMap: the space field is an unbounded integer, so the
  `u32` wrap of a region smaller than 4 bytes is not modelled.
- ExtOp.GetExtOp: the source does not bounds-check the modem index, so the
  lookup requires the index to be inside the table.
- Cbp.XmitBinary: when no response is expected, the return value is an
  uninitialised local, and the model calls it `Unspecified` rather than
  picking a value.
- Sequencer.StrayAckAfterCompletion requires the sent count plus the frame
  size to stay below 2^32. Past that, the sent count wraps as well, and only
  the mod-2^32 balance statement remains.

## Notes on the source

- In both upload handshakes, a wrong code and a timeout return the same -1
  (`Poll.MismatchLooksLikeTimeout`).
- If the allocation of an empty image succeeded, it would be sent as one frame
  of length 0 (`Sequencer.AckedTransferFrames`). On the kernels this driver
  targets, `vmalloc(0)` fails, and the download returns -1 at :260-262 first.
- After a timed-out download the image buffer is freed, but the sequencer
  globals still describe a frame inside it. A late acknowledgement makes the
  tasklet copy from the freed buffer (`QcLink.LateAckAfterTimeout`).
- An acknowledgement after completion wraps `rest_size` below zero
  (`Sequencer.StrayAckAfterCompletion`). Exact balance therefore holds only
  while a transfer is in flight.

=== FILE: boot_map.dfy ===
/**
  Where the frame metadata lives in the shared boot memory.

  Addresses are byte addresses (`nat`); the two queue buffers of the first IPC
  device are named symbolically, since only which one is chosen matters.
 */
module BootMap {
  import opened Common

  /** Board data for the shared region: its base and the download-direction field offsets. */
  datatype Dpram = Dpram(
    base: nat,
    bootSizeOffset: nat,
    bootTagOffset: nat,
    bootCountOffset: nat,
    maxBootFrameSize: U32)

  /** The transmit or receive queue buffer of the first IPC device. */
  datatype Queue = TxQ | RxQ

  /** Qualcomm boot map: payload buffer plus the frame-size, tag and count fields. */
  datatype QcBootMap = QcBootMap(buff: Queue, frameSize: nat, tag: nat, count: nat)

  /** Extra offset of the upload field block. */
  const UploadOffset: nat := 0x1000

  /** The map for one direction; only `isUpload == 1` selects the upload map. */
  function DloadMap(d: Dpram, isUpload: bv8): (m: QcBootMap)
    ensures m.buff == (if isUpload == 1 then RxQ else TxQ)
    ensures m.frameSize >= d.base && m.tag >= d.base && m.count >= d.base
    ensures isUpload != 1 ==>
      m.frameSize == d.base + d.bootSizeOffset && m.tag == d.base + d.bootTagOffset &&
      m.count == d.base + d.bootCountOffset
    ensures isUpload == 1 ==>
      m.frameSize == d.base + d.bootSizeOffset + UploadOffset && m.tag == d.base + d.bootTagOffset + UploadOffset &&
      m.count == d.base + d.bootCountOffset + UploadOffset
  {
    var shift := if isUpload == 1 then UploadOffset else 0;
    QcBootMap(
      if isUpload == 1 then RxQ else TxQ,
      d.base + d.bootSizeOffset + shift,
      d.base + d.bootTagOffset + shift,
      d.base + d.bootCountOffset + shift)
  }

  /** The map set up at probe time (the tasklet initialisation is not modelled here). */
  function InitBootMap(d: Dpram): (m: QcBootMap)
    ensures m.buff == TxQ
    ensures m == DloadMap(d, 0)
  {
    QcBootMap(
      TxQ,
      d.base + d.bootSizeOffset,
      d.base + d.bootTagOffset,
      d.base + d.bootCountOffset)
  }

  /** The probe-time map is the download map. */
  lemma InitIsDownloadMap(d: Dpram)
    ensures InitBootMap(d) == DloadMap(d, 0)
  {
  }

  /**
    Upload versus download: the three field addresses move up by exactly
    0x1000, the buffer switches from the transmit to the receive queue, and
    nothing else differs.
   */
  lemma UploadMapIsShiftedDownloadMap(d: Dpram)
    ensures DloadMap(d, 1).frameSize == DloadMap(d, 0).frameSize + 0x1000
    ensures DloadMap(d, 1).tag == DloadMap(d, 0).tag + 0x1000
    ensures DloadMap(d, 1).count == DloadMap(d, 0).count + 0x1000
    ensures DloadMap(d, 1).buff == RxQ && DloadMap(d, 0).buff == TxQ
    ensures DloadMap(d, 1) == DloadMap(d, 0).(
      buff := RxQ,
      frameSize := DloadMap(d, 0).frameSize + UploadOffset,
      tag := DloadMap(d, 0).tag + UploadOffset,
      count := DloadMap(d, 0).count + UploadOffset)
  {
  }

  /** Any direction byte other than 1 selects the download map. */
  lemma OnlyOneMeansUpload(d: Dpram, isUpload: bv8)
    requires isUpload != 1
    ensures DloadMap(d, isUpload) == DloadMap(d, 0)
  {
  }

  /**
    The layout of the field block does not depend on the direction: the
    distances between the three fields are the same in both maps.
   */
  lemma FieldSpacingIndependentOfDirection(d: Dpram, isUpload: bv8)
    ensures DloadMap(d, isUpload).tag - DloadMap(d, isUpload).frameSize ==
            d.bootTagOffset - d.bootSizeOffset
    ensures DloadMap(d, isUpload).count - DloadMap(d, isUpload).frameSize ==
            d.bootCountOffset - d.bootSizeOffset
  {
  }

  // ---------------------------------------------------------------------
  // VIA CBP maps
  // ---------------------------------------------------------------------

  /** The generic memory-interface boot map: magic word, buffer, usable space. */
  datatype MemifBootMap = MemifBootMap(magic: nat, buff: nat, space: int)

  /**
    Boot map of the VIA CBP backend: magic at the base, buffer at the boot
    buffer offset, space four bytes short of the region size.
   */
  function CbpInitBootMap(base: nat, size: int, bootBuffOffset: nat): (m: MemifBootMap)
    ensures m.magic == base
    ensures m.buff - m.magic == bootBuffOffset
    ensures m.space + 4 == size
  {
    MemifBootMap(base, base + bootBuffOffset, size - 4)
  }

  /**
    Download map of the VIA CBP backend: magic and buffer are set, the space
    field is left as it was.
   */
  function CbpInitDlMap(m: MemifBootMap, base: nat, dloadBuffOffset: nat): (r: MemifBootMap)
    ensures r.magic == base
    ensures r.buff - r.magic == dloadBuffOffset
    ensures r.space == m.space
  {
    m.(magic := base, buff := base + dloadBuffOffset)
  }

  /**
    The CBP boot and download maps share the magic word and differ only in
    where their buffer starts.
   */
  lemma CbpMapsShareMagic(m: MemifBootMap, base: nat, size: int, bootOff: nat, dlOff: nat)
    ensures CbpInitDlMap(m, base, dlOff).magic == CbpInitBootMap(base, size, bootOff).magic
    ensures CbpInitDlMap(m, base, dlOff).buff - CbpInitBootMap(base, size, bootOff).buff ==
            dlOff - bootOff
  {
  }
}

=== FILE: cbp.dfy ===
/**
  The VIA CBP backend's single-frame transfer: the host writes a pre-framed
  request into the transmit buffer and the request code into the host-to-modem
  mailbox, then (when the frame asks for one) waits for the modem's response
  code in the modem-to-host mailbox and classifies it.
 */
module Cbp {
  import opened Common

  /** The header of one pre-framed boot unit: request code, payload length, expected response. */
  datatype BootFrame = BootFrame(req: U16, len: nat, resp: U16)

  /**
    What the completion wait observed: nothing within its two-second budget,
    or a completion after which the modem-to-host mailbox held `mbx`.
   */
  datatype Completion = NoResponse | Response(mbx: U16)

  /** Shared-memory writes of one transfer, in order. */
  datatype CbpIo = TxPayload(len: nat) | MailboxToCp(req: U16)

  /**
    The value returned: a definite code, or whatever the uninitialised local
    held, which happens when the frame expects no response.
   */
  datatype XmitResult = Code(ret: int) | Unspecified

  datatype Xmit = Xmit(io: seq<CbpIo>, result: XmitResult)

  /** C conversion of an `unsigned int` into an `int`, as the target compiler performs it. */
  function ToInt32(x: U32): (r: int)
    ensures -0x8000_0000 <= r < 0x8000_0000
    ensures (r - x) % 0x1_0000_0000 == 0
    ensures x < 0x8000_0000 ==> r == x
  {
    if x < 0x8000_0000 then x else x - 0x1_0000_0000
  }

  /** `cbp_udl_wait_resp`: -EIO when the wait expires, otherwise the 16-bit mailbox value. */
  function WaitResp(c: Completion): (r: int)
    ensures r < 0 <==> c.NoResponse?
    ensures c.NoResponse? ==> r == -EIO
    ensures c.Response? ==> r == c.mbx
  {
    match c
    case NoResponse => -EIO
    case Response(m) => m
  }

  /**
    The writes of a transfer: nothing without a request code; otherwise at
    most one payload write of min(len, cap) bytes, then the request code last.
   */
  function Writes(bf: BootFrame, maxSend: nat): (io: seq<CbpIo>)
    ensures io == [] <==> bf.req == 0
    ensures bf.req != 0 ==> io[|io| - 1] == MailboxToCp(bf.req)
    ensures forall k :: 0 <= k < |io| - 1 ==> io[k].TxPayload?
    ensures |io| <= 2 && (|io| == 2 <==> bf.req != 0 && bf.len != 0)
    ensures PayloadBytes(io) == (if bf.req != 0 then Min(bf.len, maxSend) else 0)
  {
    if bf.req == 0 then []
    else if bf.len == 0 then
      PayloadOfWrites(0, bf.req);
      [MailboxToCp(bf.req)]
    else
      var n := if bf.len > maxSend then maxSend else bf.len;
      PayloadOfWrites(n, bf.req);
      [TxPayload(n), MailboxToCp(bf.req)]
  }

  lemma PayloadOfWrites(n: nat, req: U16)
    ensures PayloadBytes([MailboxToCp(req)]) == 0
    ensures PayloadBytes([TxPayload(n), MailboxToCp(req)]) == n
  {
    var io := [TxPayload(n), MailboxToCp(req)];
    assert io[1..] == [MailboxToCp(req)];
    assert [MailboxToCp(req)][1..] == [];
  }

  /** `cbp_xmit_binary` on a socket buffer of `skbLen` bytes whose data starts with `bf`. */
  function XmitBinary(bf: BootFrame, skbLen: U32, maxSend: nat, c: Completion): (x: Xmit)
    ensures x.io == Writes(bf, maxSend)
    ensures bf.resp == 0 <==> x.result.Unspecified?
    ensures bf.resp != 0 && c.NoResponse? ==> x.result == Code(-EIO)
    ensures bf.resp != 0 && c.Response? && c.mbx == bf.resp ==> x.result == Code(ToInt32(skbLen))
    ensures bf.resp != 0 && c.Response? && c.mbx != bf.resp ==> x.result == Code(-EAGAIN)
  {
    var io := Writes(bf, maxSend);
    if bf.resp == 0 then Xmit(io, Unspecified)
    else
      var err := WaitResp(c);
      if err < 0 then Xmit(io, Code(err))
      else if err == bf.resp then Xmit(io, Code(ToInt32(skbLen)))
      else Xmit(io, Code(-EAGAIN))
  }

  /** The modem answered with exactly the code the frame asked for. */
  predicate Answered(bf: BootFrame, c: Completion) {
    c.Response? && c.mbx == bf.resp
  }

  /**
    For a frame that expects a response and a buffer length an `int` can hold,
    the result is non-negative exactly when the modem answered with the
    expected code, and then it is the buffer length.
   */
  lemma XmitSucceedsIffAnswered(bf: BootFrame, skbLen: U32, maxSend: nat, c: Completion)
    requires bf.resp != 0 && skbLen < 0x8000_0000
    ensures var x := XmitBinary(bf, skbLen, maxSend, c);
      && x.result.Code?
      && (x.result.ret >= 0 <==> Answered(bf, c))
      && (Answered(bf, c) ==> x.result.ret == skbLen)
  {
  }

  /**
    The two failures stay apart: -EIO means the wait expired, -EAGAIN means a
    response arrived with the wrong code.
   */
  lemma XmitFailuresDistinct(bf: BootFrame, skbLen: U32, maxSend: nat, c: Completion)
    requires bf.resp != 0 && skbLen < 0x8000_0000
    ensures XmitBinary(bf, skbLen, maxSend, c).result == Code(-EIO) <==> c.NoResponse?
    ensures XmitBinary(bf, skbLen, maxSend, c).result == Code(-EAGAIN) <==> c.Response? && c.mbx != bf.resp
  {
  }

  /**
    A buffer of 2^31 bytes or more: the length does not fit an `int`, so even
    a matching response yields a negative result.
   */
  lemma HugeBufferLooksLikeFailure(bf: BootFrame, maxSend: nat)
    requires bf.resp != 0
    ensures XmitBinary(bf, 0x8000_0000, maxSend, Response(bf.resp)).result.ret < 0
  {
  }

  /** Total payload bytes a trace writes into the transmit buffer. */
  function PayloadBytes(io: seq<CbpIo>): nat {
    if |io| == 0 then 0
    else (if io[0].TxPayload? then io[0].len else 0) + PayloadBytes(io[1..])
  }

  /**
    The payload written never exceeds the send cap or the frame's length, and
    it is the smaller of the two whenever a request code is present.
   */
  lemma PayloadBounded(bf: BootFrame, skbLen: U32, maxSend: nat, c: Completion)
    ensures var io := XmitBinary(bf, skbLen, maxSend, c).io;
      && PayloadBytes(io) <= maxSend
      && PayloadBytes(io) <= bf.len
      && PayloadBytes(io) == (if bf.req != 0 then Min(bf.len, maxSend) else 0)
  {
    var io := XmitBinary(bf, skbLen, maxSend, c).io;
    if bf.req != 0 && bf.len != 0 {
      assert io[1..] == [MailboxToCp(bf.req)];
      assert io[1..][1..] == [];
      assert PayloadBytes(io[1..]) == 0;
      assert PayloadBytes(io) == Min(bf.len, maxSend);
    } else if bf.req != 0 {
      assert io[1..] == [];
    }
  }

  /** The mailbox is written exactly when the request code is non-zero; the response plays no part. */
  lemma MailboxWrittenIffRequest(bf: BootFrame, skbLen: U32, maxSend: nat, c: Completion, c': Completion)
    ensures var io := XmitBinary(bf, skbLen, maxSend, c).io;
      (exists k :: 0 <= k < |io| && io[k] == MailboxToCp(bf.req)) <==> bf.req != 0
    ensures XmitBinary(bf, skbLen, maxSend, c).io == XmitBinary(bf, skbLen, maxSend, c').io
  {
    var io := XmitBinary(bf, skbLen, maxSend, c).io;
    if bf.req != 0 {
      assert io[|io| - 1] == MailboxToCp(bf.req);
    }
  }
}

=== FILE: chunks.dfy ===
/**
  Reference definition of how a transfer is cut into frames, independent of the
  driver's counters: every frame is as large as the cap allows, the last one
  takes what is left.  The sequencer is proved to emit exactly these sizes.
 */
module Chunks {
  import opened Common

  function Sum(s: seq<nat>): nat {
    if |s| == 0 then 0 else s[0] + Sum(s[1..])
  }

  /** Frame sizes for `rest` bytes under a frame cap `cap`. */
  function Split(rest: nat, cap: nat): (c: seq<nat>)
    requires cap > 0
    decreases rest
    ensures |c| > 0
    ensures c[0] == Min(rest, cap)
  {
    if rest <= cap then [rest] else [cap] + Split(rest - cap, cap)
  }

  /** The frames carry every byte exactly once. */
  lemma {:induction false} SplitSum(rest: nat, cap: nat)
    requires cap > 0
    ensures Sum(Split(rest, cap)) == rest
    decreases rest
  {
    if rest > cap {
      var tail := Split(rest - cap, cap);
      SplitSum(rest - cap, cap);
      assert Split(rest, cap)[1..] == tail;
    }
  }

  /** No frame exceeds the cap, and every frame but the last is exactly the cap. */
  lemma {:induction false} SplitShape(rest: nat, cap: nat)
    requires cap > 0
    ensures forall k :: 0 <= k < |Split(rest, cap)| ==> Split(rest, cap)[k] <= cap
    ensures forall k :: 0 <= k < |Split(rest, cap)| - 1 ==> Split(rest, cap)[k] == cap
    decreases rest
  {
    if rest > cap {
      var c := Split(rest, cap);
      var tail := Split(rest - cap, cap);
      SplitShape(rest - cap, cap);
      assert c == [cap] + tail;
      forall k | 1 <= k < |c|
        ensures c[k] == tail[k - 1]
      {
      }
    }
  }

  lemma ModShift(x: nat, m: nat)
    requires m > 0
    ensures (x + m) % m == x % m
    ensures (x + m) / m == x / m + 1
  {
    var q, r := x / m, x % m;
    assert x == q * m + r;
    assert x + m == (q + 1) * m + r;
    DivModUnique(x + m, m, q + 1, r);
  }

  /** The last frame is the remainder, or a full frame when the cap divides the total. */
  lemma {:induction false} SplitLast(rest: nat, cap: nat)
    requires cap > 0
    ensures var c := Split(rest, cap);
      c[|c| - 1] == (if rest > 0 && rest % cap == 0 then cap else rest % cap)
    decreases rest
  {
    if rest > cap {
      SplitLast(rest - cap, cap);
      ModShift(rest - cap, cap);
      var c := Split(rest, cap);
      assert c == [cap] + Split(rest - cap, cap);
    } else if rest == cap {
      ModShift(0, cap);
    } else {
      DivModUnique(rest, cap, 0, rest);
    }
  }

  /** The number of frames is ceil(rest / cap); an empty transfer still takes one (empty) frame. */
  lemma {:induction false} SplitCount(rest: nat, cap: nat)
    requires cap > 0
    ensures rest > 0 ==> |Split(rest, cap)| == (rest + cap - 1) / cap
    ensures rest == 0 ==> |Split(rest, cap)| == 1
    decreases rest
  {
    if rest > cap {
      SplitCount(rest - cap, cap);
      ModShift(rest - cap + cap - 1, cap);
    } else if rest > 0 {
      DivModUnique(rest + cap - 1, cap, 1, rest - 1);
    }
  }
}

=== FILE: common.dfy ===
/**
  Machine-word types, wrap-around helpers and the Linux error numbers shared by
  every part of the boot-download model.
 */
module Common {

  /** A value held in a 16-bit register or mailbox (`u16`). */
  type U16 = x: int | 0 <= x < 0x1_0000

  /** A value held in a C `unsigned int` (32 bits on the target). */
  type U32 = x: int | 0 <= x < 0x1_0000_0000

  /** `unsigned int` arithmetic: the result is reduced modulo 2^32. */
  function Wrap32(x: int): (r: U32)
    ensures 0 <= x < 0x1_0000_0000 ==> r == x
    ensures (r - x) % 0x1_0000_0000 == 0
  {
    x % 0x1_0000_0000
  }

  /** What `iowrite16` stores when it is handed a wider value. */
  function Trunc16(x: int): (r: U16)
    ensures 0 <= x < 0x1_0000 ==> r == x
    ensures (r - x) % 0x1_0000 == 0
  {
    x % 0x1_0000
  }

  function Min(a: int, b: int): (m: int)
    ensures m <= a && m <= b
    ensures m == a || m == b
  {
    if a < b then a else b
  }

  /** Truncating a 32-bit wrapped value to 16 bits is the same as truncating the original. */
  lemma Trunc16OfWrap32(x: int)
    ensures Trunc16(Wrap32(x)) == Trunc16(x)
  {
    var q := x / 0x1_0000_0000;
    assert x == q * 0x1_0000_0000 + Wrap32(x);
    assert q * 0x1_0000_0000 == (q * 0x1_0000) * 0x1_0000;
  }

  /** Euclidean division is unique: any quotient/remainder pair with the remainder in range is it. */
  lemma DivModUnique(x: int, m: int, q: int, r: int)
    requires m > 0 && 0 <= r < m && x == q * m + r
    ensures x / m == q && x % m == r
  {
    var q', r' := x / m, x % m;
    assert x == q' * m + r';
    var d := q - q';
    assert d * m == q * m - q' * m;
    assert d * m == r' - r;
    if d >= 1 {
      AtLeastOnce(d, m);
    } else if d <= -1 {
      AtLeastOnce(-d, m);
    }
  }

  lemma AtLeastOnce(a: int, m: int)
    requires a >= 1 && m > 0
    ensures a * m >= m
  {
    assert a * m == (a - 1) * m + m;
    assert (a - 1) * m >= 0;
  }

  /** Adding a multiple of the modulus does not change the remainder. */
  lemma ModAddMultiple(x: int, k: int, m: int)
    requires m > 0
    ensures (x + k * m) % m == x % m
  {
    var q, r := x / m, x % m;
    assert x + k * m == (q + k) * m + r;
    DivModUnique(x + k * m, m, q + k, r);
  }

  /** Wrapping an intermediate sum does not change the wrapped result. */
  lemma Wrap32Shift(x: int, k: int)
    ensures Wrap32(Wrap32(x) + k) == Wrap32(x + k)
  {
    var q := x / 0x1_0000_0000;
    assert Wrap32(x) + k == (x + k) + (-q) * 0x1_0000_0000;
    ModAddMultiple(x + k, -q, 0x1_0000_0000);
  }

  /** Linux error numbers returned (negated) by the driver. */
  const EIO: int := 5
  const EAGAIN: int := 11
  const EINVAL: int := 22

  datatype Option<+T> = None | Some(value: T)
}

=== FILE: ext_op.dfy ===
/**
  The per-vendor extension-operation table and its lookup.

  Entries are indexed by the modem-type enumeration, whose values come from a
  header outside this model and are therefore parameters (`ModemIds`); which
  vendors are compiled in is a build configuration (`Config`).  Each entry
  names the handler functions it provides.
 */
module ExtOp {
  import opened Common

  /** The handler functions an entry can point at. */
  datatype Handler =
    | QcInitBootMap | QcDloadCmdHandler | QcStartHandler | QcCrashLog | QcIoctl
    | CbpInitBootMap | CbpInitDlMap | CbpXmitBinary | CbpXmitDlMagic

  /** One table slot: the existence flag and the optional callbacks. */
  datatype ExtOp = ExtOp(
    exist: bool,
    initBootMap: Option<Handler>,
    initDlMap: Option<Handler>,
    dloadCmdHandler: Option<Handler>,
    cpStartHandler: Option<Handler>,
    crashLog: Option<Handler>,
    ioctl: Option<Handler>,
    xmitBinary: Option<Handler>,
    setdlMagic: Option<Handler>)

  /** A slot no initialiser names: zero-filled. */
  const Absent: ExtOp := ExtOp(false, None, None, None, None, None, None, None, None)

  /** The entry shared by both Qualcomm modems. */
  const QcOps: ExtOp := ExtOp(true, Some(QcInitBootMap), None, Some(QcDloadCmdHandler),
    Some(QcStartHandler), Some(QcCrashLog), Some(QcIoctl), None, None)

  /** The VIA CBP82 entry. */
  const CbpOps: ExtOp := ExtOp(true, Some(CbpInitBootMap), Some(CbpInitDlMap), None,
    None, None, None, Some(CbpXmitBinary), Some(CbpXmitDlMagic))

  /** Which vendors are compiled in. */
  datatype Config = Config(mdm6600: bool, esc6270: bool, cbp82: bool)

  /** The enumeration values of the three modem types. */
  datatype ModemIds = ModemIds(mdm6600: nat, esc6270: nat, cbp82: nat)

  predicate Distinct(ids: ModemIds) {
    ids.mdm6600 != ids.esc6270 && ids.mdm6600 != ids.cbp82 && ids.esc6270 != ids.cbp82
  }

  /** Length of the array: one past the largest designated index, zero when none is compiled in. */
  function TableSize(cfg: Config, ids: ModemIds): (n: nat)
    ensures cfg.mdm6600 ==> ids.mdm6600 < n
    ensures cfg.esc6270 ==> ids.esc6270 < n
    ensures cfg.cbp82 ==> ids.cbp82 < n
    ensures n == 0 <==> !cfg.mdm6600 && !cfg.esc6270 && !cfg.cbp82
  {
    var a := if cfg.mdm6600 then ids.mdm6600 + 1 else 0;
    var b := if cfg.esc6270 then ids.esc6270 + 1 else 0;
    var c := if cfg.cbp82 then ids.cbp82 + 1 else 0;
    if a >= b && a >= c then a else if b >= c then b else c
  }

  /** The slot at index `i` of the designated initialiser. */
  function Slot(cfg: Config, ids: ModemIds, i: int): ExtOp {
    if cfg.cbp82 && i == ids.cbp82 then CbpOps
    else if cfg.esc6270 && i == ids.esc6270 then QcOps
    else if cfg.mdm6600 && i == ids.mdm6600 then QcOps
    else Absent
  }

  /** `ext_op_set` for a build configuration. */
  function Table(cfg: Config, ids: ModemIds): (t: seq<ExtOp>)
    ensures |t| == TableSize(cfg, ids)
    ensures forall i :: 0 <= i < |t| ==> t[i] == Slot(cfg, ids, i)
  {
    seq(TableSize(cfg, ids), i => Slot(cfg, ids, i))
  }

  /**
    `pld_get_ext_op`: the entry at `modem` when its existence flag is set,
    nothing otherwise.  The source does not check the index, so the caller
    must keep it inside the table.
   */
  function GetExtOp(table: seq<ExtOp>, modem: nat): (r: Option<ExtOp>)
    requires modem < |table|
    ensures r.Some? <==> table[modem].exist
    ensures r.Some? ==> r.value == table[modem] && r.value.exist
  {
    if table[modem].exist then Some(table[modem]) else None
  }

  /** The modem type an index denotes in a build, if it denotes a compiled-in one. */
  function Vendor(cfg: Config, ids: ModemIds, modem: nat): Option<ExtOp> {
    if cfg.mdm6600 && modem == ids.mdm6600 then Some(QcOps)
    else if cfg.esc6270 && modem == ids.esc6270 then Some(QcOps)
    else if cfg.cbp82 && modem == ids.cbp82 then Some(CbpOps)
    else None
  }

  /**
    Looking up any index inside the table finds the vendor's operations exactly
    when that vendor is compiled in under that index, and nothing otherwise.
   */
  lemma LookupFindsCompiledVendor(cfg: Config, ids: ModemIds, modem: nat)
    requires Distinct(ids) && modem < TableSize(cfg, ids)
    ensures GetExtOp(Table(cfg, ids), modem) == Vendor(cfg, ids, modem)
  {
  }

  /** Every compiled-in vendor's index is a legal lookup, and it yields that vendor's operations. */
  lemma CompiledVendorsReachable(cfg: Config, ids: ModemIds)
    requires Distinct(ids)
    ensures cfg.mdm6600 ==> ids.mdm6600 < |Table(cfg, ids)| && GetExtOp(Table(cfg, ids), ids.mdm6600) == Some(QcOps)
    ensures cfg.esc6270 ==> ids.esc6270 < |Table(cfg, ids)| && GetExtOp(Table(cfg, ids), ids.esc6270) == Some(QcOps)
    ensures cfg.cbp82 ==> ids.cbp82 < |Table(cfg, ids)| && GetExtOp(Table(cfg, ids), ids.cbp82) == Some(CbpOps)
  {
  }
}

=== FILE: poll.dfy ===
/**
  Bounded waits of the boot-download driver, stripped of their sleeps.

  Every wait in the driver has the same shape: check a condition, sleep, bump a
  counter, give up once the counter exceeds a limit.  Checks therefore happen at
  counter values 0, 1, ..., limit: `limit + 1` checks in all.  What the hardware
  or the interrupt path does between two checks is an input: a sequence indexed
  by the check number, with everything past its end meaning "nothing happened".
 */
module Poll {
  import opened Common

  // ---------------------------------------------------------------------
  // Latch polls (copy_start, copy_complete, boot_complete, boot_start_complete)
  // ---------------------------------------------------------------------

  /** Outcome of a latch poll: the latch was seen at check `at`, or the budget ran out. */
  datatype Wait = Seen(at: nat) | TimedOut

  /**
    Is the latch set when check `i` looks at it?  `latch` is its value when the
    wait begins; `raises[i]` says that the interrupt path set it just before
    check `i`.
   */
  predicate RaisedAt(latch: bool, raises: seq<bool>, i: nat) {
    (i == 0 && latch) || (i < |raises| && raises[i])
  }

  /** Some check among the first `limit + 1` sees the latch. */
  predicate RaisedWithin(latch: bool, raises: seq<bool>, limit: nat) {
    exists i :: 0 <= i <= limit && RaisedAt(latch, raises, i)
  }

  function PollFrom(latch: bool, raises: seq<bool>, i: nat, limit: nat): (w: Wait)
    requires i <= limit
    decreases limit - i
    ensures w.Seen? <==> exists j :: i <= j <= limit && RaisedAt(latch, raises, j)
    ensures w.Seen? ==> i <= w.at <= limit && RaisedAt(latch, raises, w.at)
    ensures w.Seen? ==> forall j :: i <= j < w.at ==> !RaisedAt(latch, raises, j)
  {
    if RaisedAt(latch, raises, i) then Seen(i)
    else if i + 1 > limit then TimedOut
    else PollFrom(latch, raises, i + 1, limit)
  }

  /**
    The driver's latch wait: success exactly when the latch is observed within
    `limit + 1` checks, reported at the first check that sees it.
   */
  function LatchPoll(latch: bool, raises: seq<bool>, limit: nat): (w: Wait)
    ensures w.Seen? <==> RaisedWithin(latch, raises, limit)
    ensures w.Seen? ==> w.at <= limit && RaisedAt(latch, raises, w.at)
    ensures w.Seen? ==> forall j :: 0 <= j < w.at ==> !RaisedAt(latch, raises, j)
  {
    PollFrom(latch, raises, 0, limit)
  }

  /** The C return value of a latch wait. */
  function WaitStatus(w: Wait): (r: int)
    ensures r == 0 <==> w.Seen?
    ensures r == -1 <==> w.TimedOut?
  {
    if w.Seen? then 0 else -1
  }

  /**
    The latch as a wait leaves it.  Seen, it is consumed.  After a timeout the
    interrupt path may still have raised it during the final sleep, after the
    last check and before the wait returns; then it stays set.
   */
  function LatchLeft(latch: bool, raises: seq<bool>, limit: nat): (b: bool)
    ensures LatchPoll(latch, raises, limit).Seen? ==> !b
    ensures LatchPoll(latch, raises, limit).TimedOut? ==> (b <==> RaisedAt(latch, raises, limit + 1))
  {
    if LatchPoll(latch, raises, limit).Seen? then false else RaisedAt(latch, raises, limit + 1)
  }

  /** A latch that is already set satisfies the very first check. */
  lemma SetLatchSeenImmediately(raises: seq<bool>, limit: nat)
    ensures LatchPoll(true, raises, limit) == Seen(0)
  {
    assert RaisedAt(true, raises, 0);
  }

  /** A peer that never raises the latch makes the wait time out. */
  lemma SilentPeerTimesOut(limit: nat)
    ensures LatchPoll(false, [], limit) == TimedOut
  {
    forall i | 0 <= i <= limit
      ensures !RaisedAt(false, [], i)
    {
    }
  }

  /**
    A raise arriving during the final sleep, after the last check, does not
    make the wait succeed; the latch is left set.
   */
  lemma LateRaiseMissed(limit: nat)
    ensures LatchPoll(false, seq(limit + 1, _ => false) + [true], limit) == TimedOut
    ensures LatchLeft(false, seq(limit + 1, _ => false) + [true], limit)
  {
    var raises := seq(limit + 1, _ => false) + [true];
    forall i | 0 <= i <= limit
      ensures !RaisedAt(false, raises, i)
    {
      assert raises[i] == false;
    }
    assert RaisedAt(false, raises, limit + 1);
  }

  /** A raise just before the last check is still observed. */
  lemma LastCheckCounts(limit: nat)
    ensures LatchPoll(false, seq(limit, _ => false) + [true], limit) == Seen(limit)
  {
    var raises := seq(limit, _ => false) + [true];
    assert RaisedAt(false, raises, limit);
    forall j | 0 <= j < limit
      ensures !RaisedAt(false, raises, j)
    {
      assert raises[j] == false;
    }
  }

  // ---------------------------------------------------------------------
  // Mailbox handshakes of the upload path (GPIO level + received code)
  // ---------------------------------------------------------------------

  /**
    What one check of an upload handshake observes: `None` while the
    notification GPIO is high (nothing pending), `Some(code)` once it is low and
    the mailbox holds `code`.
   */
  function Pending(obs: seq<Option<U16>>, i: nat): Option<U16> {
    if i < |obs| then obs[i] else None
  }

  /** Outcome of a handshake: the expected code, another code, or the budget ran out. */
  datatype Handshake = Matched(at: nat) | Mismatch(code: U16) | Expired

  function AwaitFrom(obs: seq<Option<U16>>, want: U16, i: nat, limit: nat): (h: Handshake)
    requires i <= limit
    decreases limit - i
    ensures h.Expired? <==> forall j :: i <= j <= limit ==> Pending(obs, j).None?
    ensures h.Matched? ==> i <= h.at <= limit && Pending(obs, h.at) == Some(want)
    ensures h.Matched? ==> forall j :: i <= j < h.at ==> Pending(obs, j).None?
    ensures h.Mismatch? ==>
      h.code != want &&
      exists k :: i <= k <= limit && Pending(obs, k) == Some(h.code) &&
                  forall j :: i <= j < k ==> Pending(obs, j).None?
  {
    match Pending(obs, i)
    case Some(code) => if code == want then Matched(i) else Mismatch(code)
    case None => if i + 1 > limit then Expired else AwaitFrom(obs, want, i + 1, limit)
  }

  /**
    The handshake loop of `_qc_data_upload`: the first pending notification
    within `limit + 1` checks decides, matching or not; no pending notification
    at all is a timeout.
   */
  function AwaitCode(obs: seq<Option<U16>>, want: U16, limit: nat): (h: Handshake)
    ensures h.Expired? <==> forall j :: 0 <= j <= limit ==> Pending(obs, j).None?
    ensures h.Matched? ==> h.at <= limit && Pending(obs, h.at) == Some(want)
    ensures h.Matched? ==> forall j :: 0 <= j < h.at ==> Pending(obs, j).None?
    ensures h.Mismatch? ==>
      h.code != want &&
      exists k :: 0 <= k <= limit && Pending(obs, k) == Some(h.code) &&
                  forall j :: 0 <= j < k ==> Pending(obs, j).None?
  {
    AwaitFrom(obs, want, 0, limit)
  }

  /**
    The handshake loop of `qc_uload_step1`: as `AwaitCode`, but once the budget
    runs out the mailbox is read one last time without looking at the GPIO, and
    the expected code there still counts as a match (at check `limit + 1`).
   */
  function AwaitCodeWithLastRead(obs: seq<Option<U16>>, want: U16, limit: nat, lastRead: U16): (h: Handshake)
    ensures h.Matched? <==>
      (AwaitCode(obs, want, limit).Matched? ||
       (AwaitCode(obs, want, limit).Expired? && lastRead == want))
    ensures h.Matched? && AwaitCode(obs, want, limit).Expired? ==> h.at == limit + 1
    ensures h.Mismatch? <==> AwaitCode(obs, want, limit).Mismatch?
  {
    match AwaitCode(obs, want, limit)
    case Expired => if lastRead == want then Matched(limit + 1) else Expired
    case other => other
  }

  /** The expected code pending at the last check is still taken. */
  lemma CodeAtLastCheck(want: U16, limit: nat)
    ensures AwaitCode(seq(limit, _ => None) + [Some(want)], want, limit).Matched?
  {
    var obs := seq(limit, _ => None) + [Some(want)];
    assert Pending(obs, limit) == Some(want);
    forall j | 0 <= j < limit
      ensures Pending(obs, j).None?
    {
      assert obs[j] == None;
    }
  }

  /** A code that turns up only after the last check is not taken by the loop. */
  lemma CodeAfterLastCheck(want: U16, limit: nat)
    ensures AwaitCode(seq(limit + 1, _ => None) + [Some(want)], want, limit).Expired?
  {
    var obs := seq(limit + 1, _ => None) + [Some(want)];
    forall j | 0 <= j <= limit
      ensures Pending(obs, j).None?
    {
      assert obs[j] == None;
    }
  }

  /** The C return value of a handshake: mismatch and timeout are both -1. */
  function HandshakeStatus(h: Handshake): (r: int)
    ensures r == 0 <==> h.Matched?
    ensures r == -1 <==> (h.Mismatch? || h.Expired?)
  {
    if h.Matched? then 0 else -1
  }

  /**
    The driver cannot tell a wrong code from a silent peer: both handshake
    failures produce the same return value.
   */
  lemma MismatchLooksLikeTimeout(code: U16, want: U16, limit: nat)
    requires code != want
    ensures HandshakeStatus(AwaitCode([Some(code)], want, limit)) ==
            HandshakeStatus(AwaitCode([], want, limit)) == -1
  {
    assert Pending([Some(code)], 0) == Some(code);
    var h := AwaitCode([], want, limit);
    assert forall j :: 0 <= j <= limit ==> Pending([], j).None?;
  }
}

=== FILE: qc_link.dfy ===
/**
  The Qualcomm (MDM6600 / ESC6270) boot control plane of the shared-memory
  link: the modem command handler, the download tasklet, the bounded waits of
  the ioctl entry points, the upload handshakes and the interrupt-enable
  bookkeeping.

  The link is an immutable record; every entry point returns the new record
  together with the C return value.  Hardware effects are appended to `out`;
  what the modem does while the driver waits is an input (see module Poll).
 */
module QcLink {
  import opened Common
  import opened Poll
  import opened BootMap
  import opened Sequencer
  import opened RunAlgebra

  // Codes the modem sends to the host.
  const CmdCopyStart: U16 := 0x1234
  const CmdFrameAck: U16 := 0xDBAB
  const CmdBootComplete: U16 := 0xABCD

  // Codes the host sends to the modem.
  const IntrBootStart: U16 := 0x4567
  const IntrUploadStart: U16 := 0xDEAD
  /** INT_MASK_VALID | INT_MASK_CMD | INT_MASK_CP_AIRPLANE_BOOT | INT_MASK_CP_AP_ANDROID | INT_MASK_CMD_INIT_END */
  const IntrInitEnd: U16 := 0x0080 + 0x0040 + 0x1000 + 0x0100 + 0x0002

  // Wait budgets (the loop gives up once its counter exceeds these).
  const PrepareLimit: nat := 1000
  const NvLimit: nat := 200
  const BinLimit: nat := 1000
  const BootStartLimit: nat := 200
  const PostProcessLimit: nat := 200
  const UploadLimit: nat := 200

  /** Tag the modem puts on the final upload frame. */
  const UploadLastTag: U16 := 4

  /** One effect on the hardware. */
  datatype Io =
    | FrameOut(bootMap: QcBootMap, frame: Frame)        // download frame copied in and described
    | UploadCopy(bootMap: QcBootMap, dest: nat, len: U16) // upload frame copied out to `dest`
    | Intr(code: U16)                                // interrupt code sent to the modem

  /**
    The per-link state: board data, the current boot map, the sequencer
    globals, whether the download tasklet is scheduled, the boot-start latch,
    how many times the link interrupt is disabled, whether the kernel copy of
    the image is allocated, and the hardware effects so far.
   */
  datatype Link = Link(
    dpram: Dpram,
    bootMap: QcBootMap,
    prog: Progress,
    taskPending: bool,
    bootStartComplete: bool,
    irqDepth: nat,
    imageLive: bool,
    out: seq<Io>)

  /** What an entry point hands back: new state, C return value, struct copied back to the caller. */
  datatype Reply = Reply(link: Link, ret: int, userOut: Option<UdlParam>)

  /** The effects of sending a list of download frames through the current map. */
  function FramesIo(m: QcBootMap, fs: seq<Frame>): (io: seq<Io>)
    ensures |io| == 2 * |fs|
    ensures forall k :: 0 <= k < |fs| ==> io[2 * k] == FrameOut(m, fs[k]) && io[2 * k + 1] == Intr(FrameIntr)
  {
    if |fs| == 0 then []
    else [FrameOut(m, fs[0]), Intr(FrameIntr)] + FramesIo(m, fs[1..])
  }

  lemma {:induction false} FramesIoAppend(m: QcBootMap, a: seq<Frame>, b: seq<Frame>)
    ensures FramesIo(m, a + b) == FramesIo(m, a) + FramesIo(m, b)
    decreases |a|
  {
    if |a| == 0 {
      assert a + b == b;
    } else {
      var h := [FrameOut(m, a[0]), Intr(FrameIntr)];
      assert (a + b)[0] == a[0];
      assert (a + b)[1..] == a[1..] + b;
      assert FramesIo(m, a + b) == h + FramesIo(m, a[1..] + b);
      FramesIoAppend(m, a[1..], b);
      ConcatAssoc(h, FramesIo(m, a[1..]), FramesIo(m, b));
    }
  }

  function WithCheck(l: Link, c: UdlCheck): Link {
    l.(prog := l.prog.(check := c))
  }

  // ---------------------------------------------------------------------
  // Interrupt-enable bookkeeping
  // ---------------------------------------------------------------------

  function DisableIrq(l: Link): (r: Link)
    ensures r.irqDepth == l.irqDepth + 1
    ensures r == l.(irqDepth := r.irqDepth)
  {
    l.(irqDepth := l.irqDepth + 1)
  }

  /** `enable_irq` undoes one disable; on an enabled line it only warns, so the depth stays 0. */
  function EnableIrq(l: Link): (r: Link)
    ensures l.irqDepth > 0 ==> r.irqDepth + 1 == l.irqDepth
    ensures l.irqDepth == 0 ==> r.irqDepth == 0
    ensures r == l.(irqDepth := r.irqDepth)
  {
    l.(irqDepth := if l.irqDepth > 0 then l.irqDepth - 1 else 0)
  }

  lemma EnableUndoesDisable(l: Link)
    ensures EnableIrq(DisableIrq(l)) == l
  {
  }

  // ---------------------------------------------------------------------
  // Probe time, command handler, tasklet
  // ---------------------------------------------------------------------

  /** `qc_init_boot_map`: download map in place, tasklet initialised (not scheduled). */
  function InitLink(l: Link): (r: Link)
    ensures r.bootMap == DloadMap(l.dpram, 0) && !r.taskPending
    ensures r == l.(bootMap := r.bootMap, taskPending := false)
  {
    InitIsDownloadMap(l.dpram);
    l.(bootMap := InitBootMap(l.dpram), taskPending := false)
  }

  /**
    `qc_dload_cmd_handler`: 0x1234 raises `copy_start`, 0xABCD raises
    `boot_complete`, 0xDBAB schedules the download tasklet; any other code is
    logged and changes nothing.
   */
  function DloadCmdHandler(l: Link, cmd: U16): (r: Link)
    ensures cmd == CmdCopyStart ==>
      r == WithCheck(l, l.prog.check.(copyStart := true))
    ensures cmd == CmdBootComplete ==>
      r == WithCheck(l, l.prog.check.(bootComplete := true))
    ensures cmd == CmdFrameAck ==> r == l.(taskPending := true)
    ensures cmd !in {CmdCopyStart, CmdFrameAck, CmdBootComplete} ==> r == l
  {
    if cmd == CmdCopyStart then WithCheck(l, l.prog.check.(copyStart := true))
    else if cmd == CmdFrameAck then l.(taskPending := true)
    else if cmd == CmdBootComplete then WithCheck(l, l.prog.check.(bootComplete := true))
    else l
  }

  /** `qc_dload_task`: one sequencer step; a frame it sends goes out through the current map. */
  function DloadTask(l: Link): (r: Link)
    ensures r.prog == Step(l.prog, l.dpram.maxBootFrameSize).next
    ensures r.out == l.out + FramesIo(l.bootMap, FrameSeq(Step(l.prog, l.dpram.maxBootFrameSize).frame))
    ensures r == l.(prog := r.prog, out := r.out)
  {
    var s := Step(l.prog, l.dpram.maxBootFrameSize);
    l.(prog := s.next, out := l.out + FramesIo(l.bootMap, FrameSeq(s.frame)))
  }

  /** The softirq running a scheduled tasklet once. */
  function RunTasklet(l: Link): (r: Link)
    ensures !r.taskPending
    ensures !l.taskPending ==> r == l
  {
    if l.taskPending then DloadTask(l.(taskPending := false)) else l
  }

  /** `n` tasklet runs, expressed through the sequencer's own `Run`. */
  function TaskletRuns(l: Link, n: nat): (r: Link)
    ensures r == l.(prog := r.prog, out := r.out)
  {
    var t := Run(l.prog, l.dpram.maxBootFrameSize, n);
    l.(prog := t.last, out := l.out + FramesIo(l.bootMap, t.frames))
  }

  /**
    A frame acknowledgement from the modem causes exactly one sequencer step,
    and a second acknowledgement before the tasklet runs does not add another.
   */
  lemma FrameAckRunsOneStep(l: Link)
    requires !l.taskPending
    ensures RunTasklet(DloadCmdHandler(l, CmdFrameAck)) == TaskletRuns(l, 1)
    ensures RunTasklet(DloadCmdHandler(DloadCmdHandler(l, CmdFrameAck), CmdFrameAck)) ==
            RunTasklet(DloadCmdHandler(l, CmdFrameAck))
  {
    var s := Step(l.prog, l.dpram.maxBootFrameSize);
    assert Run(l.prog, l.dpram.maxBootFrameSize, 1) == Trace(s.next, FrameSeq(s.frame));
  }

  /** A code outside the three recognised ones leaves every latch and counter alone, mid-transfer or not. */
  lemma UnknownCommandIgnored(l: Link, cmd: U16)
    requires cmd !in {CmdCopyStart, CmdFrameAck, CmdBootComplete}
    ensures DloadCmdHandler(l, cmd).prog == l.prog
    ensures DloadCmdHandler(l, cmd).taskPending == l.taskPending
    ensures RunTasklet(DloadCmdHandler(l, cmd)) == RunTasklet(l)
  {
  }

  // ---------------------------------------------------------------------
  // Download path
  // ---------------------------------------------------------------------

  /**
    `qc_prepare_download`: switch to the download map, then wait up to 1000
    checks for `copy_start`, consuming it when seen.  On a timeout the latch
    is left as the final sleep leaves it.
   */
  function PrepareDownload(l: Link, raises: seq<bool>): (r: Reply)
    ensures r.ret == 0 <==> RaisedWithin(l.prog.check.copyStart, raises, PrepareLimit)
    ensures r.ret == 0 || r.ret == -1
    ensures r.ret == 0 ==> !r.link.prog.check.copyStart
    ensures r.ret == -1 ==> (r.link.prog.check.copyStart <==> RaisedAt(false, raises, PrepareLimit + 1))
    ensures r.link == WithCheck(l.(bootMap := DloadMap(l.dpram, 0)), l.prog.check.(copyStart := r.link.prog.check.copyStart))
    ensures r.userOut.None?
  {
    var l1 := l.(bootMap := DloadMap(l.dpram, 0));
    var w := LatchPoll(l.prog.check.copyStart, raises, PrepareLimit);
    var left := LatchLeft(l.prog.check.copyStart, raises, PrepareLimit);
    Reply(WithCheck(l1, l1.prog.check.(copyStart := left)), WaitStatus(w), None)
  }

  /**
    The prepare wait's budget is 1000 sleeps: `copy_start` raised just before
    the 1001st check is seen; raised one sleep later it is not, but it stays
    set, so the next prepare succeeds at its first check.
   */
  lemma PrepareBudget(l: Link)
    requires !l.prog.check.copyStart
    ensures PrepareDownload(l, seq(1000, _ => false) + [true]).ret == 0
    ensures var r := PrepareDownload(l, seq(1001, _ => false) + [true]);
      && r.ret == -1
      && r.link.prog.check.copyStart
      && PrepareDownload(r.link, []).ret == 0
  {
    LastCheckCounts(PrepareLimit);
    LateRaiseMissed(PrepareLimit);
    SetLatchSeenImmediately([], PrepareLimit);
  }

  /** The modem's 0x1234 command is what the prepare wait is waiting for. */
  lemma CopyStartReleasesPrepare(l: Link, raises: seq<bool>)
    ensures PrepareDownload(DloadCmdHandler(l, CmdCopyStart), raises).ret == 0
  {
    SetLatchSeenImmediately(raises, PrepareLimit);
  }

  /** Number of tasklet runs between the previous check and check `i`. */
  function RunsBefore(runs: seq<nat>, i: nat): nat {
    if i < |runs| then runs[i] else 0
  }

  /** Tasklet runs since the wait began, up to check `j`. */
  function RunsUpTo(runs: seq<nat>, j: nat): nat
    decreases j
  {
    RunsBefore(runs, j) + (if j == 0 then 0 else RunsUpTo(runs, j - 1))
  }

  /** Has the transfer completed by check `j` of a wait begun in state `l`? */
  predicate CompleteBy(l: Link, runs: seq<nat>, j: nat) {
    TaskletRuns(l, RunsUpTo(runs, j)).prog.check.copyComplete
  }

  /** The completion latch as each check of a wait begun in state `l` finds it. */
  function CompletionSeen(l: Link, runs: seq<nat>, limit: nat): (seen: seq<bool>)
    ensures |seen| == limit + 1
    ensures forall j :: 0 <= j <= limit ==> seen[j] == CompleteBy(l, runs, j)
  {
    seq(limit + 1, (j: nat) => CompleteBy(l, runs, j))
  }

  /**
    The completion wait of `_qc_download`, begun in state `l`: a latch poll of
    `copy_complete`, which the tasklet raises.  Seen at check `j` (after
    `RunsUpTo(runs, j)` tasklet runs), it is consumed and the wait succeeds;
    otherwise the wait gives up after check `limit`, once the runs of the
    final sleep are done.
   */
  function AwaitCopy(l: Link, runs: seq<nat>, limit: nat): (r: Reply)
    ensures r.ret == 0 || r.ret == -1
    ensures r.ret == 0 ==> !r.link.prog.check.copyComplete
    ensures r.link == l.(prog := r.link.prog, out := r.link.out)
    ensures r.link.prog.check.copyStart == l.prog.check.copyStart
    ensures r.link.prog.check.bootComplete == l.prog.check.bootComplete
    ensures r.userOut.None?
  {
    match LatchPoll(false, CompletionSeen(l, runs, limit), limit)
    case Seen(j) =>
      RunKeepsLatches(l.prog, l.dpram.maxBootFrameSize, RunsUpTo(runs, j));
      var lj := TaskletRuns(l, RunsUpTo(runs, j));
      Reply(WithCheck(lj, lj.prog.check.(copyComplete := false)), 0, None)
    case TimedOut =>
      RunKeepsLatches(l.prog, l.dpram.maxBootFrameSize, RunsUpTo(runs, limit + 1));
      Reply(TaskletRuns(l, RunsUpTo(runs, limit + 1)), -1, None)
  }

  /** Tasklet runs compose: `a` runs then `b` more reach the state of `a + b` runs. */
  lemma TaskletRunsCompose(l: Link, a: nat, b: nat)
    ensures TaskletRuns(TaskletRuns(l, a), b).prog == TaskletRuns(l, a + b).prog
  {
    RunCompose(l.prog, l.dpram.maxBootFrameSize, a, b);
  }

  lemma TaskletRunsComposeTo(l: Link, a: nat, b: nat, c: nat)
    requires c == a + b
    ensures TaskletRuns(TaskletRuns(l, a), b).prog == TaskletRuns(l, c).prog
  {
    TaskletRunsCompose(l, a, b);
  }

  /**
    Counting runs from the start of the wait is the same as running the
    tasklet between consecutive checks.
   */
  lemma RunsAccumulate(l: Link, runs: seq<nat>, j: nat)
    ensures TaskletRuns(TaskletRuns(l, RunsUpTo(runs, j)), RunsBefore(runs, j + 1)).prog ==
            TaskletRuns(l, RunsUpTo(runs, j + 1)).prog
  {
    RunsUpToStep(runs, j);
    TaskletRunsComposeTo(l, RunsUpTo(runs, j), RunsBefore(runs, j + 1), RunsUpTo(runs, j + 1));
  }

  lemma RunsUpToStep(runs: seq<nat>, j: nat)
    ensures RunsUpTo(runs, j + 1) == RunsUpTo(runs, j) + RunsBefore(runs, j + 1)
  {
  }

  /**
    The completion wait succeeds exactly when the transfer completes by some
    check within the budget, and then it stops at the first such check, with
    the frames sent by then; on a timeout the sequencer is where every run up
    to the end of the final sleep left it.
   */
  lemma AwaitCopyOutcome(l: Link, runs: seq<nat>, limit: nat)
    ensures var r := AwaitCopy(l, runs, limit);
      && (r.ret == 0 <==> exists j :: 0 <= j <= limit && CompleteBy(l, runs, j))
      && (r.ret == 0 ==> exists j ::
            && 0 <= j <= limit && CompleteBy(l, runs, j)
            && (forall k :: 0 <= k < j ==> !CompleteBy(l, runs, k))
            && r.link.out == TaskletRuns(l, RunsUpTo(runs, j)).out)
      && (r.ret == -1 ==> r.link == TaskletRuns(l, RunsUpTo(runs, limit + 1)))
  {
    var seen := CompletionSeen(l, runs, limit);
    forall j | 0 <= j <= limit
      ensures RaisedAt(false, seen, j) == CompleteBy(l, runs, j)
    {
    }
  }

  /** Completion is never undone: once complete by check `j`, complete by every later check. */
  lemma {:induction false} CompleteByMonotone(l: Link, runs: seq<nat>, j: nat, k: nat)
    requires j <= k && CompleteBy(l, runs, j)
    ensures CompleteBy(l, runs, k)
    decreases k - j
  {
    if j < k {
      var lj := TaskletRuns(l, RunsUpTo(runs, j));
      RunsAccumulate(l, runs, j);
      assert TaskletRuns(lj, RunsBefore(runs, j + 1)).prog.check.copyComplete;
      CompleteByMonotone(l, runs, j + 1, k);
    }
  }

  /** So the wait succeeds exactly when the transfer is complete by its last check. */
  lemma AwaitCopyAtLimit(l: Link, runs: seq<nat>, limit: nat)
    ensures AwaitCopy(l, runs, limit).ret == 0 <==> CompleteBy(l, runs, limit)
  {
    AwaitCopyOutcome(l, runs, limit);
    if AwaitCopy(l, runs, limit).ret == 0 {
      var j :| 0 <= j <= limit && CompleteBy(l, runs, j);
      CompleteByMonotone(l, runs, j, limit);
    }
  }

  function CopyLimit(kind: ImageKind): nat {
    if kind == Nv then NvLimit else BinLimit
  }

  /**
    The set-up of `_qc_download`: the image is allocated, the counters cover
    the whole image with nothing sent, and the first frame (offset 0, at most
    one cap long, the kind's tag and first count) goes out through the current
    map; with a non-zero cap the transfer is then in flight.
   */
  function DownloadSetUp(l: Link, user: UdlParam, kind: ImageKind): (r: Link)
    ensures var max := l.dpram.maxBootFrameSize;
      && r.prog.check.totalSize == user.size && r.prog.check.sendSize == 0
      && r.prog.check.copyStart == l.prog.check.copyStart
      && r.prog.check.bootComplete == l.prog.check.bootComplete
      && (max > 0 ==> InFlight(r.prog, max))
      && r.out == l.out + FramesIo(l.bootMap, [Frame(0, Min(user.size, max), TagCode(kind), FirstCount(kind, user.count))])
      && r == l.(prog := r.prog, imageLive := true, out := r.out)
  {
    var b := Begin(l.prog.check, user.size, user.count, kind, l.dpram.maxBootFrameSize);
    l.(prog := b.next, imageLive := true, out := l.out + FramesIo(l.bootMap, FrameSeq(b.frame)))
  }

  /**
    `_qc_download`: copy the image (allocation may fail), set up the counters,
    send the first frame, wait for completion (200 checks for NV data, 1000 for
    a binary) and free the image.
   */
  function Download(l: Link, user: UdlParam, kind: ImageKind, allocOk: bool, runs: seq<nat>): (r: Reply)
    ensures r.ret == 0 || r.ret == -1
    ensures !allocOk ==> r.ret == -1 && r.link == l
    ensures allocOk ==> !r.link.imageLive
    ensures allocOk && r.ret == 0 ==> !r.link.prog.check.copyComplete
    ensures r.link.dpram == l.dpram && r.link.bootMap == l.bootMap && r.link.irqDepth == l.irqDepth
    ensures r.link == l.(prog := r.link.prog, imageLive := r.link.imageLive, out := r.link.out)
    ensures r.link.prog.check.copyStart == l.prog.check.copyStart
    ensures r.link.prog.check.bootComplete == l.prog.check.bootComplete
    ensures r.userOut.None?
  {
    if !allocOk then Reply(l, -1, None)
    else
      var w := AwaitCopy(DownloadSetUp(l, user, kind), runs, CopyLimit(kind));
      w.(link := w.link.(imageLive := false))
  }

  /**
    With the image allocated, a download succeeds exactly when the tasklet
    runs complete the transfer by some check within the budget (200 checks
    for NV data, 1000 for a binary); after a timeout the sequencer is where
    the runs up to the end of the final sleep left it.
   */
  lemma DownloadOutcome(l: Link, user: UdlParam, kind: ImageKind, runs: seq<nat>)
    ensures var r := Download(l, user, kind, true, runs);
      var l1 := DownloadSetUp(l, user, kind);
      && (r.ret == 0 <==> exists j :: 0 <= j <= CopyLimit(kind) && CompleteBy(l1, runs, j))
      && (r.ret == -1 ==> r.link.prog == TaskletRuns(l1, RunsUpTo(runs, CopyLimit(kind) + 1)).prog)
  {
    AwaitCopyOutcome(DownloadSetUp(l, user, kind), runs, CopyLimit(kind));
  }

  /** No tasklet runs before the first `k` checks, then `n` runs. */
  function ZerosThen(k: nat, n: nat): (runs: seq<nat>)
    ensures |runs| == k + 1 && runs[k] == n
    ensures forall j :: 0 <= j < k ==> runs[j] == 0
  {
    seq(k, _ => 0) + [n]
  }

  lemma {:induction false} ZerosThenUpTo(k: nat, n: nat, j: nat)
    ensures RunsUpTo(ZerosThen(k, n), j) == if j < k then 0 else n
    decreases j
  {
    if j > 0 {
      ZerosThenUpTo(k, n, j - 1);
    }
  }

  /**
    The budget edge of a download whose transfer needs `n` tasklet runs:
    all of them before check `limit` succeed; all of them one sleep later
    time out, and the tasklet, finishing during that final sleep, leaves
    `copy_complete` set behind the failed download.
   */
  lemma DownloadBudget(l: Link, user: UdlParam, kind: ImageKind)
    requires l.dpram.maxBootFrameSize > 0
    ensures var n := |Chunks.Split(user.size, l.dpram.maxBootFrameSize)|;
      && Download(l, user, kind, true, ZerosThen(CopyLimit(kind), n)).ret == 0
      && Download(l, user, kind, true, ZerosThen(CopyLimit(kind) + 1, n)).ret == -1
      && Download(l, user, kind, true, ZerosThen(CopyLimit(kind) + 1, n)).link.prog.check.copyComplete
  {
    DownloadOnBudget(l, user, kind);
    DownloadPastBudget(l, user, kind);
  }

  lemma DownloadOnBudget(l: Link, user: UdlParam, kind: ImageKind)
    requires l.dpram.maxBootFrameSize > 0
    ensures var n := |Chunks.Split(user.size, l.dpram.maxBootFrameSize)|;
      Download(l, user, kind, true, ZerosThen(CopyLimit(kind), n)).ret == 0
  {
    var n := |Chunks.Split(user.size, l.dpram.maxBootFrameSize)|;
    var limit := CopyLimit(kind);
    var l1 := DownloadSetUp(l, user, kind);
    var on := ZerosThen(limit, n);
    assert CompleteBy(l1, on, limit) by {
      SetUpThenAllRuns(l, user, kind);
      ZerosThenUpTo(limit, n, limit);
    }
    DownloadOutcome(l, user, kind, on);
  }

  lemma DownloadPastBudget(l: Link, user: UdlParam, kind: ImageKind)
    requires l.dpram.maxBootFrameSize > 0
    ensures var n := |Chunks.Split(user.size, l.dpram.maxBootFrameSize)|;
      var r := Download(l, user, kind, true, ZerosThen(CopyLimit(kind) + 1, n));
      r.ret == -1 && r.link.prog.check.copyComplete
  {
    var n := |Chunks.Split(user.size, l.dpram.maxBootFrameSize)|;
    var limit := CopyLimit(kind);
    var late := ZerosThen(limit + 1, n);
    var l1 := DownloadSetUp(l, user, kind);
    DownloadPastBudgetFails(l, user, kind);
    assert Download(l, user, kind, true, late).link.prog == TaskletRuns(l1, RunsUpTo(late, limit + 1)).prog by {
      DownloadOutcome(l, user, kind, late);
    }
    LateRunsComplete(l, user, kind);
  }

  lemma DownloadPastBudgetFails(l: Link, user: UdlParam, kind: ImageKind)
    requires l.dpram.maxBootFrameSize > 0
    ensures var n := |Chunks.Split(user.size, l.dpram.maxBootFrameSize)|;
      Download(l, user, kind, true, ZerosThen(CopyLimit(kind) + 1, n)).ret == -1
  {
    var n := |Chunks.Split(user.size, l.dpram.maxBootFrameSize)|;
    var late := ZerosThen(CopyLimit(kind) + 1, n);
    NoRunsNoCompletion(DownloadSetUp(l, user, kind), late, CopyLimit(kind), n);
    DownloadOutcome(l, user, kind, late);
  }

  /** A wait from a state that is not complete, with no tasklet runs before its checks, sees nothing. */
  lemma NoRunsNoCompletion(l: Link, runs: seq<nat>, limit: nat, n: nat)
    requires !l.prog.check.copyComplete && runs == ZerosThen(limit + 1, n)
    ensures forall j :: 0 <= j <= limit ==> !CompleteBy(l, runs, j)
  {
    forall j | 0 <= j <= limit
      ensures !CompleteBy(l, runs, j)
    {
      ZerosThenUpTo(limit + 1, n, j);
      TaskletRunsNone(l);
    }
  }

  /** The runs of the final sleep past the budget complete the transfer. */
  lemma LateRunsComplete(l: Link, user: UdlParam, kind: ImageKind)
    requires l.dpram.maxBootFrameSize > 0
    ensures var n := |Chunks.Split(user.size, l.dpram.maxBootFrameSize)|;
      var limit := CopyLimit(kind);
      TaskletRuns(DownloadSetUp(l, user, kind), RunsUpTo(ZerosThen(limit + 1, n), limit + 1)).prog.check.copyComplete
  {
    var n := |Chunks.Split(user.size, l.dpram.maxBootFrameSize)|;
    SetUpThenAllRuns(l, user, kind);
    ZerosThenUpTo(CopyLimit(kind) + 1, n, CopyLimit(kind) + 1);
  }

  /** NV data gets 200 sleeps: completion before the 201st check counts, one sleep later it does not. */
  lemma NvBudget(l: Link, user: UdlParam)
    requires l.dpram.maxBootFrameSize > 0
    ensures var n := |Chunks.Split(user.size, l.dpram.maxBootFrameSize)|;
      && Download(l, user, Nv, true, ZerosThen(200, n)).ret == 0
      && Download(l, user, Nv, true, ZerosThen(201, n)).ret == -1
  {
    DownloadBudget(l, user, Nv);
  }

  /** A binary gets 1000 sleeps: completion before the 1001st check counts, one sleep later it does not. */
  lemma BinBudget(l: Link, user: UdlParam)
    requires l.dpram.maxBootFrameSize > 0
    ensures var n := |Chunks.Split(user.size, l.dpram.maxBootFrameSize)|;
      && Download(l, user, Bin, true, ZerosThen(1000, n)).ret == 0
      && Download(l, user, Bin, true, ZerosThen(1001, n)).ret == -1
  {
    DownloadBudget(l, user, Bin);
  }

  lemma TaskletRunsNone(l: Link)
    ensures TaskletRuns(l, 0) == l
  {
  }

  /** A wait in which the tasklet never runs and the latch is clear times out. */
  lemma AwaitCopySilent(l: Link, limit: nat)
    requires !l.prog.check.copyComplete
    ensures AwaitCopy(l, [], limit) == Reply(l, -1, None)
  {
    TaskletRunsNone(l);
    var seen := CompletionSeen(l, [], limit);
    forall j | 0 <= j <= limit
      ensures !RaisedAt(false, seen, j)
    {
      RunsUpToNone(j);
    }
    RunsUpToNone(limit + 1);
  }

  lemma RunsUpToNone(j: nat)
    ensures RunsUpTo([], j) == 0
  {
  }

  /**
    The modem acknowledges nothing: the download fails with -1 after the whole
    budget, having sent only the first frame, and the image is freed while the
    sequencer still describes a frame inside it.
   */
  lemma DownloadUnacknowledged(l: Link, user: UdlParam, kind: ImageKind)
    requires l.dpram.maxBootFrameSize > 0
    ensures var r := Download(l, user, kind, true, []);
      var b := Begin(l.prog.check, user.size, user.count, kind, l.dpram.maxBootFrameSize);
      && r.ret == -1
      && r.link.out == l.out + FramesIo(l.bootMap, [b.frame.value])
      && r.link.prog == b.next
      && !r.link.imageLive
  {
    AwaitCopySilent(DownloadSetUp(l, user, kind), CopyLimit(kind));
  }

  /**
    An acknowledgement arriving after a timed-out download of a multi-frame
    image still makes the tasklet send a frame, copied from the image the
    download has already freed.
   */
  lemma LateAckAfterTimeout(l: Link, user: UdlParam, kind: ImageKind)
    requires 0 < l.dpram.maxBootFrameSize < user.size
    ensures var r := Download(l, user, kind, true, []);
      var late := DloadTask(r.link);
      && r.ret == -1 && !r.link.imageLive
      && |late.out| == |r.link.out| + 2
      && late.out[|r.link.out|].FrameOut?
  {
    var max := l.dpram.maxBootFrameSize;
    DownloadUnacknowledged(l, user, kind);
    var b := Begin(l.prog.check, user.size, user.count, kind, max);
    assert InFlight(b.next, max);
    StepInFlight(b.next, max);
  }

  /**
    The modem acknowledges every frame before the first completion check: the
    download succeeds, the frames that go out are exactly the acknowledged
    transfer of the sequencer, and the completion latch is consumed.
   */
  lemma DownloadAllAcknowledged(l: Link, user: UdlParam, kind: ImageKind)
    requires l.dpram.maxBootFrameSize > 0
    ensures var max := l.dpram.maxBootFrameSize;
      var r := Download(l, user, kind, true, [|Chunks.Split(user.size, max)|]);
      && r.ret == 0
      && r.link.out == l.out + FramesIo(l.bootMap, AckedTransfer(l.prog.check, user.size, user.count, kind, max))
      && !r.link.prog.check.copyComplete
  {
    var max := l.dpram.maxBootFrameSize;
    var n := |Chunks.Split(user.size, max)|;
    var b := Begin(l.prog.check, user.size, user.count, kind, max);
    var l1 := DownloadSetUp(l, user, kind);
    var l2 := TaskletRuns(l1, n);
    var r := Download(l, user, kind, true, [n]);
    assert r.ret == 0 && r.link.out == l2.out && !r.link.prog.check.copyComplete by {
      SetUpThenAllRuns(l, user, kind);
      AwaitCopyFirstCheck(l1, n, CopyLimit(kind));
    }
    SetUpThenAckedTransfer(l, user, kind);
  }

  /** The output of the set-up and the acknowledged runs is the sequencer's acknowledged transfer. */
  lemma SetUpThenAckedTransfer(l: Link, user: UdlParam, kind: ImageKind)
    requires l.dpram.maxBootFrameSize > 0
    ensures var max := l.dpram.maxBootFrameSize;
      TaskletRuns(DownloadSetUp(l, user, kind), |Chunks.Split(user.size, max)|).out ==
      l.out + FramesIo(l.bootMap, AckedTransfer(l.prog.check, user.size, user.count, kind, max))
  {
    var max := l.dpram.maxBootFrameSize;
    var n := |Chunks.Split(user.size, max)|;
    var b := Begin(l.prog.check, user.size, user.count, kind, max);
    var l1 := DownloadSetUp(l, user, kind);
    var first, rest := FrameSeq(b.frame), Run(b.next, max, n).frames;
    var x, y := FramesIo(l.bootMap, first), FramesIo(l.bootMap, rest);
    assert l1.out == l.out + x && l1.prog == b.next && l1.bootMap == l.bootMap && l1.dpram == l.dpram;
    assert TaskletRuns(l1, n).out == l1.out + y;
    assert AckedTransfer(l.prog.check, user.size, user.count, kind, max) == first + rest;
    FramesIoAppend(l.bootMap, first, rest);
    ConcatAssoc(l.out, x, y);
  }

  lemma ConcatAssoc<T>(a: seq<T>, b: seq<T>, c: seq<T>)
    ensures a + b + c == a + (b + c)
  {
  }

  /** After the set-up, one tasklet run per frame of the split completes the transfer. */
  lemma SetUpThenAllRuns(l: Link, user: UdlParam, kind: ImageKind)
    requires l.dpram.maxBootFrameSize > 0
    ensures var max := l.dpram.maxBootFrameSize;
      var n := |Chunks.Split(user.size, max)|;
      var b := Begin(l.prog.check, user.size, user.count, kind, max);
      var l2 := TaskletRuns(DownloadSetUp(l, user, kind), n);
      && l2.prog.check.copyComplete
      && l2.out == l.out + FramesIo(l.bootMap, FrameSeq(b.frame)) + FramesIo(l.bootMap, Run(b.next, max, n).frames)
  {
    var max := l.dpram.maxBootFrameSize;
    var b := Begin(l.prog.check, user.size, user.count, kind, max);
    assert InFlight(b.next, max);
    RunInFlightCompletes(b.next, max);
  }

  /** When the tasklet runs before the first check complete the transfer, the wait succeeds at once. */
  lemma AwaitCopyFirstCheck(l: Link, n: nat, limit: nat)
    requires TaskletRuns(l, n).prog.check.copyComplete
    ensures var l1 := TaskletRuns(l, n);
      AwaitCopy(l, [n], limit) == Reply(WithCheck(l1, l1.prog.check.(copyComplete := false)), 0, None)
  {
    assert RunsUpTo([n], 0) == n;
    assert RaisedAt(false, CompletionSeen(l, [n], limit), 0);
  }

  // ---------------------------------------------------------------------
  // Boot start and post-process
  // ---------------------------------------------------------------------

  /**
    `qc_boot_start`: send 0x4567, then wait up to 200 checks for
    `boot_complete`, consuming it when seen; on a timeout the latch is left as
    the final sleep leaves it.
   */
  function BootStart(l: Link, raises: seq<bool>): (r: Reply)
    ensures r.ret == 0 <==> RaisedWithin(l.prog.check.bootComplete, raises, BootStartLimit)
    ensures r.ret == 0 || r.ret == -1
    ensures r.ret == 0 ==> !r.link.prog.check.bootComplete
    ensures r.ret == -1 ==> (r.link.prog.check.bootComplete <==> RaisedAt(false, raises, BootStartLimit + 1))
    ensures r.link == WithCheck(l.(out := l.out + [Intr(IntrBootStart)]),
                                l.prog.check.(bootComplete := r.link.prog.check.bootComplete))
  {
    var w := LatchPoll(l.prog.check.bootComplete, raises, BootStartLimit);
    var left := LatchLeft(l.prog.check.bootComplete, raises, BootStartLimit);
    var l1 := l.(out := l.out + [Intr(IntrBootStart)]);
    Reply(WithCheck(l1, l1.prog.check.(bootComplete := left)), WaitStatus(w), None)
  }

  /**
    `qc_boot_post_process`: wait up to 200 checks for the boot-start latch,
    consuming it when seen; on a timeout the latch is left as the final sleep
    leaves it.
   */
  function BootPostProcess(l: Link, raises: seq<bool>): (r: Reply)
    ensures r.ret == 0 <==> RaisedWithin(l.bootStartComplete, raises, PostProcessLimit)
    ensures r.ret == 0 || r.ret == -1
    ensures r.ret == 0 ==> !r.link.bootStartComplete
    ensures r.ret == -1 ==> (r.link.bootStartComplete <==> RaisedAt(false, raises, PostProcessLimit + 1))
    ensures r.link == l.(bootStartComplete := r.link.bootStartComplete)
  {
    var w := LatchPoll(l.bootStartComplete, raises, PostProcessLimit);
    Reply(l.(bootStartComplete := LatchLeft(l.bootStartComplete, raises, PostProcessLimit)), WaitStatus(w), None)
  }

  /**
    The boot-start wait's budget is 200 sleeps: `boot_complete` raised just
    before the 201st check is seen; one sleep later it is not, and stays set.
   */
  lemma BootStartBudget(l: Link)
    requires !l.prog.check.bootComplete
    ensures BootStart(l, seq(200, _ => false) + [true]).ret == 0
    ensures var r := BootStart(l, seq(201, _ => false) + [true]);
      r.ret == -1 && r.link.prog.check.bootComplete
  {
    LastCheckCounts(BootStartLimit);
    LateRaiseMissed(BootStartLimit);
  }

  /**
    The post-process wait's budget is 200 sleeps: the boot-start latch raised
    just before the 201st check is seen; one sleep later it is not, and stays set.
   */
  lemma PostProcessBudget(l: Link)
    requires !l.bootStartComplete
    ensures BootPostProcess(l, seq(200, _ => false) + [true]).ret == 0
    ensures var r := BootPostProcess(l, seq(201, _ => false) + [true]);
      r.ret == -1 && r.link.bootStartComplete
  {
    LastCheckCounts(PostProcessLimit);
    LateRaiseMissed(PostProcessLimit);
  }

  /** The modem's 0xABCD command is what the boot-start wait is waiting for. */
  lemma BootCompleteReleasesBootStart(l: Link, raises: seq<bool>)
    ensures BootStart(DloadCmdHandler(l, CmdBootComplete), raises).ret == 0
  {
    SetLatchSeenImmediately(raises, BootStartLimit);
  }

  /** The start handler raises exactly the latch the post-process wait is waiting for. */
  lemma StartHandlerReleasesPostProcess(l: Link, raises: seq<bool>)
    ensures BootPostProcess(StartHandler(l), raises).ret == 0
  {
    SetLatchSeenImmediately(raises, PostProcessLimit);
  }

  /** `qc_start_handler`: raise the boot-start latch and send the INIT_END mask. */
  function StartHandler(l: Link): (r: Link)
    ensures r.bootStartComplete
    ensures r.out == l.out + [Intr(0x11C2)]
    ensures r == l.(bootStartComplete := true, out := r.out)
  {
    l.(bootStartComplete := true, out := l.out + [Intr(IntrInitEnd)])
  }

  // ---------------------------------------------------------------------
  // Upload path
  // ---------------------------------------------------------------------

  /**
    `qc_uload_step1`: switch to the upload map, wait up to 200 checks for 0x1234
    (with a last mailbox read after the budget), then send 0xDEAD.  A wrong code
    or a timeout is -1 and sends nothing.
   */
  function UploadStep1(l: Link, obs: seq<Option<U16>>, lastRead: U16): (r: Reply)
    ensures var h := AwaitCode(obs, CmdCopyStart, UploadLimit);
      r.ret == 0 <==> (h.Matched? || (h.Expired? && lastRead == CmdCopyStart))
    ensures r.ret == 0 || r.ret == -1
    ensures r.ret == 0 ==> r.link.out == l.out + [Intr(IntrUploadStart)]
    ensures r.ret == -1 ==> r.link.out == l.out
    ensures r.link == l.(bootMap := DloadMap(l.dpram, 1), out := r.link.out)
  {
    var l1 := l.(bootMap := DloadMap(l.dpram, 1));
    var h := AwaitCodeWithLastRead(obs, CmdCopyStart, UploadLimit, lastRead);
    if h.Matched? then Reply(l1.(out := l1.out + [Intr(IntrUploadStart)]), 0, None)
    else Reply(l1, -1, None)
  }

  /**
    The upload handshakes give the modem 200 sleeps: a code pending at the
    check after the 200th sleep is still taken, one sleep later it is not.
    Step 1 then reads the mailbox once more, so its code may arrive during
    that last sleep; step 2 has no such read.
   */
  lemma UploadBudget(l: Link, user: UdlParam, f: UploadFields)
    ensures UploadStep1(l, seq(200, _ => None) + [Some(CmdCopyStart)], 0).ret == 0
    ensures UploadStep1(l, seq(201, _ => None), CmdCopyStart).ret == 0
    ensures UploadStep1(l, seq(201, _ => None), 0).ret == -1
    ensures UploadStep2(l, user, seq(200, _ => None) + [Some(CmdFrameAck)], f).ret == 0
    ensures UploadStep2(l, user, seq(201, _ => None) + [Some(CmdFrameAck)], f).ret == -1
  {
    CodeAtLastCheck(CmdCopyStart, UploadLimit);
    CodeAtLastCheck(CmdFrameAck, UploadLimit);
    CodeAfterLastCheck(CmdFrameAck, UploadLimit);
  }

  /** The three 16-bit fields the modem fills in for one upload frame. */
  datatype UploadFields = UploadFields(size: U16, tag: U16, count: U16)

  /**
    `_qc_data_upload`: wait up to 200 checks for the frame notification 0xDBAB;
    then read the size, tag and count fields, copy `size` bytes (unchecked) to
    the caller's buffer and acknowledge with 0xDB12.  A wrong code or a timeout
    is -1 and touches nothing.
   */
  function DataUpload(l: Link, param: UdlParam, obs: seq<Option<U16>>, fields: UploadFields): (r: Reply)
    ensures r.ret == 0 <==> AwaitCode(obs, CmdFrameAck, UploadLimit).Matched?
    ensures r.ret == 0 || r.ret == -1
    ensures r.ret == 0 ==>
      && r.userOut == Some(param.(size := fields.size, tag := fields.tag, count := fields.count))
      && r.link.out == l.out + [UploadCopy(l.bootMap, param.addr, fields.size), Intr(FrameIntr)]
    ensures r.ret == -1 ==> r.link == l
    ensures r.link == l.(out := r.link.out)
  {
    var h := AwaitCode(obs, CmdFrameAck, UploadLimit);
    if !h.Matched? then Reply(l, -1, None)
    else
      var p := param.(size := fields.size, tag := fields.tag, count := fields.count);
      Reply(l.(out := l.out + [UploadCopy(l.bootMap, param.addr, fields.size), Intr(FrameIntr)]), 0, Some(p))
  }

  /**
    `qc_uload_step2`: one upload frame; the final frame (tag 4) re-enables the
    link interrupt; the updated parameters are copied back to the caller.
   */
  function UploadStep2(l: Link, user: UdlParam, obs: seq<Option<U16>>, fields: UploadFields): (r: Reply)
    ensures r.ret == 0 || r.ret == -1
    ensures r.ret == 0 <==> AwaitCode(obs, CmdFrameAck, UploadLimit).Matched?
    ensures r.ret == -1 ==> r.link == l && r.userOut.None?
    ensures r.ret == 0 ==> r.userOut == Some(user.(size := fields.size, tag := fields.tag, count := fields.count))
    ensures r.ret == 0 ==> r.link.out == l.out + [UploadCopy(l.bootMap, user.addr, fields.size), Intr(FrameIntr)]
    ensures r.ret == 0 && fields.tag == UploadLastTag ==> r.link.irqDepth == EnableIrq(l).irqDepth
    ensures r.ret == 0 && fields.tag != UploadLastTag ==> r.link.irqDepth == l.irqDepth
    ensures r.link == l.(out := r.link.out, irqDepth := r.link.irqDepth)
  {
    var u := DataUpload(l, user, obs, fields);
    if u.ret < 0 then Reply(u.link, -1, None)
    else
      var p := u.userOut.value;
      Reply(if p.tag == UploadLastTag then EnableIrq(u.link) else u.link, 0, Some(p))
  }

  // ---------------------------------------------------------------------
  // ioctl dispatch
  // ---------------------------------------------------------------------

  /** The closed set of ioctl commands; any other number is `Unknown`. */
  datatype IoctlCmd =
    | PhonePowOn
    | PhoneImgLoad
    | NvDataLoad
    | PhoneBootStart
    | PhoneUploadStep1
    | PhoneUploadStep2
    | Unknown(code: nat)

  /**
    Everything an ioctl call learns from outside the driver: the argument
    struct as copied in, whether the image allocation succeeds, the latch
    raises before each check of the first and second wait, the tasklet runs
    before each completion check, the upload handshake observations, the last
    mailbox read of upload step 1 and the upload frame fields.
   */
  datatype Env = Env(
    user: UdlParam,
    allocOk: bool,
    raises: seq<bool>,
    postRaises: seq<bool>,
    runs: seq<nat>,
    gpio: seq<Option<U16>>,
    lastRead: U16,
    fields: UploadFields)

  /** `qc_ioctl`. */
  function Ioctl(l: Link, cmd: IoctlCmd, env: Env): (r: Reply)
    ensures cmd.Unknown? ==> r == Reply(l, -EINVAL, None)
    ensures !cmd.Unknown? ==> r.ret == 0 || r.ret == -1
    ensures cmd == PhonePowOn ==> r == PrepareDownload(l, env.raises)
    ensures cmd == PhoneImgLoad ==> r == Download(l, env.user, Bin, env.allocOk, env.runs)
    ensures cmd == NvDataLoad ==> r == Download(l, env.user, Nv, env.allocOk, env.runs)
    ensures cmd != PhoneUploadStep1 && cmd != PhoneUploadStep2 ==> r.link.irqDepth == l.irqDepth
  {
    match cmd
    case PhonePowOn => PrepareDownload(l, env.raises)
    case PhoneImgLoad => Download(l, env.user, Bin, env.allocOk, env.runs)
    case NvDataLoad => Download(l, env.user, Nv, env.allocOk, env.runs)
    case PhoneBootStart =>
      var b := BootStart(l, env.raises);
      if b.ret < 0 then b else BootPostProcess(b.link, env.postRaises)
    case PhoneUploadStep1 =>
      var s := UploadStep1(DisableIrq(l), env.gpio, env.lastRead);
      if s.ret < 0 then s.(link := EnableIrq(s.link)) else s
    case PhoneUploadStep2 =>
      var s := UploadStep2(l, env.user, env.gpio, env.fields);
      if s.ret < 0 then s.(link := EnableIrq(s.link)) else s
    case Unknown(_) => Reply(l, -EINVAL, None)
  }

  /**
    Boot start before post-process: the ioctl succeeds exactly when both waits
    see their latch; when boot start times out the post-process wait is never
    entered and the boot-start latch is left as it was.
   */
  lemma BootStartThenPostProcess(l: Link, env: Env)
    ensures var r := Ioctl(l, PhoneBootStart, env);
      && (r.ret == 0 <==>
            RaisedWithin(l.prog.check.bootComplete, env.raises, BootStartLimit) &&
            RaisedWithin(l.bootStartComplete, env.postRaises, PostProcessLimit))
      && (!RaisedWithin(l.prog.check.bootComplete, env.raises, BootStartLimit) ==>
            r.link.bootStartComplete == l.bootStartComplete)
      && r.link.out == l.out + [Intr(IntrBootStart)]
  {
  }

  /**
    Upload step 1 leaves the interrupt disabled once more than before exactly
    when it succeeds; a failure (wrong code or timeout) restores the depth.
   */
  lemma UploadStep1IrqBalance(l: Link, env: Env)
    ensures var r := Ioctl(l, PhoneUploadStep1, env);
      && (r.ret == 0 ==> r.link.irqDepth == l.irqDepth + 1)
      && (r.ret == -1 ==> r.link.irqDepth == l.irqDepth)
  {
  }

  /**
    Upload step 2 re-enables the interrupt when it fails and when it delivers
    the final frame (tag 4); any other frame leaves the depth alone.
   */
  lemma UploadStep2IrqBalance(l: Link, env: Env)
    ensures var r := Ioctl(l, PhoneUploadStep2, env);
      && (r.ret == -1 ==> r.link.irqDepth == EnableIrq(l).irqDepth)
      && (r.ret == 0 && env.fields.tag == UploadLastTag ==> r.link.irqDepth == EnableIrq(l).irqDepth)
      && (r.ret == 0 && env.fields.tag != UploadLastTag ==> r.link.irqDepth == l.irqDepth)
  {
  }

  /** Upload step 2 called once per environment, stopping at the first failure. */
  function Step2Calls(l: Link, envs: seq<Env>): (r: Reply)
    decreases |envs|
  {
    if |envs| == 0 then Reply(l, 0, None)
    else
      var r := Ioctl(l, PhoneUploadStep2, envs[0]);
      if r.ret < 0 || |envs| == 1 then r else Step2Calls(r.link, envs[1..])
  }

  /** Every frame arrives, and only the last one carries the final tag. */
  predicate CleanUpload(envs: seq<Env>) {
    && |envs| > 0
    && (forall k :: 0 <= k < |envs| ==> AwaitCode(envs[k].gpio, CmdFrameAck, UploadLimit).Matched?)
    && (forall k :: 0 <= k < |envs| - 1 ==> envs[k].fields.tag != UploadLastTag)
    && envs[|envs| - 1].fields.tag == UploadLastTag
  }

  lemma {:induction false} Step2CallsDepth(l: Link, envs: seq<Env>)
    requires CleanUpload(envs)
    ensures Step2Calls(l, envs).ret == 0
    ensures Step2Calls(l, envs).link.irqDepth == EnableIrq(l).irqDepth
    decreases |envs|
  {
    UploadStep2IrqBalance(l, envs[0]);
    if |envs| > 1 {
      var r := Ioctl(l, PhoneUploadStep2, envs[0]);
      assert CleanUpload(envs[1..]) by {
        forall k | 0 <= k < |envs[1..]|
          ensures AwaitCode(envs[1..][k].gpio, CmdFrameAck, UploadLimit).Matched?
        {
          assert envs[1..][k] == envs[k + 1];
        }
        forall k | 0 <= k < |envs[1..]| - 1
          ensures envs[1..][k].fields.tag != UploadLastTag
        {
          assert envs[1..][k] == envs[k + 1];
        }
      }
      Step2CallsDepth(r.link, envs[1..]);
    }
  }

  /**
    A complete upload session (step 1 succeeds, then every step 2 frame
    arrives and only the last carries tag 4) leaves the interrupt enabled
    exactly as deeply as before the session.
   */
  lemma UploadSessionRestoresIrq(l: Link, step1: Env, frames: seq<Env>)
    requires Ioctl(l, PhoneUploadStep1, step1).ret == 0
    requires CleanUpload(frames)
    ensures Step2Calls(Ioctl(l, PhoneUploadStep1, step1).link, frames).ret == 0
    ensures Step2Calls(Ioctl(l, PhoneUploadStep1, step1).link, frames).link.irqDepth == l.irqDepth
  {
    UploadStep1IrqBalance(l, step1);
    Step2CallsDepth(Ioctl(l, PhoneUploadStep1, step1).link, frames);
  }
}

=== FILE: run_algebra.dfy ===
/**
  How sequencer runs compose: the progress after `a` acknowledgements and then
  `b` more is the progress after `a + b`.  The download wait counts tasklet runs
  from the start of the wait; this is what lets that count stand for the runs
  between its checks.
 */
module RunAlgebra {
  import opened Common
  import opened Sequencer

  /**
    The progress after `n` tasklet runs: `Sequencer.Run` without the frames it
    sends.  Composition is a fact about states alone, and stating it here keeps
    the frame sequences (and the sequence reasoning they bring) out of its
    induction; `RunIsAfter` ties the two definitions together.
   */
  function After(p: Progress, maxFrame: U32, n: nat): Progress
    decreases n
  {
    if n == 0 then p else After(Step(p, maxFrame).next, maxFrame, n - 1)
  }

  lemma AfterUnfold(p: Progress, maxFrame: U32, n: nat, k: nat)
    requires n > 0 && k == n - 1
    ensures After(p, maxFrame, n) == After(Step(p, maxFrame).next, maxFrame, k)
  {
  }

  lemma {:induction false} AfterCompose(p: Progress, maxFrame: U32, a: nat, b: nat)
    ensures After(After(p, maxFrame, a), maxFrame, b) == After(p, maxFrame, a + b)
    decreases a
  {
    if a == 0 {
      assert After(p, maxFrame, a) == p;
    } else {
      var q := Step(p, maxFrame).next;
      AfterUnfold(p, maxFrame, a, a - 1);
      AfterUnfold(p, maxFrame, a + b, a - 1 + b);
      AfterCompose(q, maxFrame, a - 1, b);
    }
  }

  /** `Run` ends where `After` does. */
  lemma {:induction false} RunIsAfter(p: Progress, maxFrame: U32, n: nat)
    ensures Run(p, maxFrame, n).last == After(p, maxFrame, n)
    decreases n
  {
    if n > 0 {
      RunIsAfter(Step(p, maxFrame).next, maxFrame, n - 1);
    }
  }

  /** `a` steps followed by `b` more end where `a + b` steps do. */
  lemma RunCompose(p: Progress, maxFrame: U32, a: nat, b: nat)
    ensures Run(Run(p, maxFrame, a).last, maxFrame, b).last == Run(p, maxFrame, a + b).last
  {
    RunIsAfter(p, maxFrame, a);
    RunIsAfter(Run(p, maxFrame, a).last, maxFrame, b);
    RunIsAfter(p, maxFrame, a + b);
    AfterCompose(p, maxFrame, a, b);
  }
}

=== FILE: sequencer.dfy ===
/**
  The Qualcomm download sequencer: the progress counters shared between the
  ioctl caller and the download tasklet, the frame emission of
  `_qc_do_download`, the set-up in `_qc_download` and the per-ack step of
  `qc_dload_task`.

  The counters are C `unsigned int`s and are kept as 32-bit values with
  explicit wrap-around, so that a stray acknowledgement after completion is
  modelled as the driver executes it.
 */
module Sequencer {
  import opened Common
  import opened Chunks

  /** What is being downloaded; the caller picks the tag. */
  datatype ImageKind = Bin | Nv

  /** `enum qc_dload_tag`: NONE = 0, BIN = 1, NV = 2. */
  const TagNone: U32 := 0

  function TagCode(k: ImageKind): (t: U32)
    ensures t != TagNone
  {
    match k
    case Bin => 1
    case Nv => 2
  }

  /** `struct qc_dpram_udl_check`: the counters and the three latches. */
  datatype UdlCheck = UdlCheck(
    totalSize: U32,
    restSize: U32,
    sendSize: U32,
    copyStart: bool,
    copyComplete: bool,
    bootComplete: bool)

  /**
    `struct qc_dpram_udl_param` for the frame in flight: `addr` is the offset of
    the frame's first byte in the kernel copy of the image.
   */
  datatype UdlParam = UdlParam(addr: nat, size: U32, count: U32, tag: U32)

  /** The two driver globals the sequencer works on. */
  datatype Progress = Progress(check: UdlCheck, param: UdlParam)

  /**
    One frame that passed the size guard: `len` bytes from offset `addr` copied
    into the boot buffer, the size, tag and count fields written, and the frame
    interrupt 0xDB12 raised to the modem.
   */
  datatype Frame = Frame(addr: nat, len: nat, tag: U32, count: U32)

  /** The interrupt code announcing a frame (upload frames are acknowledged with it too). */
  const FrameIntr: U16 := 0xDB12

  /** Result of one sequencer action: the new progress and the frame sent, if any. */
  datatype Stepped = Stepped(next: Progress, frame: Option<Frame>)

  /**
    `_qc_do_download`: a frame no larger than the board's cap is sent as
    described by `p`; a larger one is only logged and nothing is sent.
   */
  function DoDownload(p: UdlParam, maxFrame: U32): (f: Option<Frame>)
    ensures f.Some? <==> p.size <= maxFrame
    ensures f.Some? ==> f.value.len <= maxFrame
    ensures f.Some? ==> f.value == Frame(p.addr, p.size, p.tag, p.count)
  {
    if p.size <= maxFrame then Some(Frame(p.addr, p.size, p.tag, p.count)) else None
  }

  /** The count of the first frame: always 1 for NV data, the caller's count for a binary. */
  function FirstCount(kind: ImageKind, userCount: U32): (c: U32)
    ensures kind == Nv ==> c == 1
    ensures kind == Bin ==> c == userCount
  {
    if kind == Nv then 1 else userCount
  }

  /** Counters add up: sent plus remaining is the total. */
  predicate Balanced(c: UdlCheck) {
    c.sendSize + c.restSize == c.totalSize
  }

  /** Counters add up modulo 2^32, as the driver's `unsigned int`s can guarantee. */
  predicate Balanced32(c: UdlCheck) {
    (c.sendSize + c.restSize - c.totalSize) % 0x1_0000_0000 == 0
  }

  /**
    The set-up of `_qc_download` after the user parameters are copied in and the
    image buffer is allocated: counters reset to the whole image, first frame
    size capped, count and tag chosen by the image kind, first frame sent.
   */
  function Begin(prior: UdlCheck, size: U32, userCount: U32, kind: ImageKind, maxFrame: U32): (s: Stepped)
    ensures Balanced(s.next.check) && s.next.check.totalSize == size && s.next.check.sendSize == 0
    ensures !s.next.check.copyComplete
    ensures s.next.check.copyStart == prior.copyStart && s.next.check.bootComplete == prior.bootComplete
    ensures s.next.param.size == Min(size, maxFrame)
    ensures s.next.param.count == FirstCount(kind, userCount) && s.next.param.tag == TagCode(kind)
    ensures s.frame.Some? && s.frame.value.addr == 0 && s.frame.value.len <= maxFrame
    ensures s.frame == Some(Frame(0, Min(size, maxFrame), TagCode(kind), FirstCount(kind, userCount)))
  {
    var check := prior.(totalSize := size, restSize := size, sendSize := 0, copyComplete := false);
    var frameSize := if size < maxFrame then size else maxFrame;
    var param := UdlParam(0, frameSize, FirstCount(kind, userCount), TagCode(kind));
    Stepped(Progress(check, param), DoDownload(param, maxFrame))
  }

  /** Has the step that follows `p` reached the end of the image? */
  predicate Finishes(p: Progress) {
    Wrap32(p.check.sendSize + p.param.size) >= p.check.totalSize
  }

  /**
    `qc_dload_task`, run once per frame acknowledgement: account for the frame
    just sent; at the end of the image raise `copy_complete`, clear the tag and
    send nothing; otherwise cap the next frame to what is left, bump the count
    and send it.
   */
  function Step(p: Progress, maxFrame: U32): (s: Stepped)
    ensures s.next.check.totalSize == p.check.totalSize
    ensures s.next.check.copyStart == p.check.copyStart
    ensures s.next.check.bootComplete == p.check.bootComplete
    ensures Balanced(p.check) && p.param.size <= p.check.restSize ==> Balanced(s.next.check)
    ensures s.next.check.copyComplete == (p.check.copyComplete || Finishes(p))
    ensures Finishes(p) ==> s.frame.None? && s.next.param.tag == TagNone
    ensures !Finishes(p) ==> s.next.param.count == Wrap32(p.param.count + 1)
    ensures !Finishes(p) ==> s.next.param.tag == p.param.tag
    ensures !Finishes(p) && p.param.size <= maxFrame ==> s.frame.Some?
    ensures s.frame.Some? ==> s.frame.value.addr == p.param.addr + p.param.size
  {
    var c := p.check;
    var q := p.param;
    var send := Wrap32(c.sendSize + q.size);
    var rest := Wrap32(c.restSize - q.size);
    var addr := q.addr + q.size;
    if send >= c.totalSize then
      Stepped(Progress(c.(sendSize := send, restSize := rest, copyComplete := true),
                       q.(addr := addr, tag := TagNone)),
              None)
    else
      var size := if rest < maxFrame then rest else q.size;
      var q' := q.(addr := addr, size := size, count := Wrap32(q.count + 1));
      Stepped(Progress(c.(sendSize := send, restSize := rest), q'), DoDownload(q', maxFrame))
  }

  /**
    Every tasklet run keeps sent plus remaining equal to the total modulo 2^32,
    whatever state it starts from.
   */
  lemma StepKeepsBalance32(p: Progress, maxFrame: U32)
    ensures Balanced32(p.check) ==> Balanced32(Step(p, maxFrame).next.check)
  {
    var c := p.check;
    var size := p.param.size;
    var M := 0x1_0000_0000;
    var c' := Step(p, maxFrame).next.check;
    var k1 := (c.sendSize + size) / M;
    var k2 := (c.restSize - size) / M;
    assert c'.sendSize == c.sendSize + size - k1 * M;
    assert c'.restSize == c.restSize - size - k2 * M;
    assert c'.sendSize + c'.restSize - c'.totalSize ==
           (c.sendSize + c.restSize - c.totalSize) + (-(k1 + k2)) * M;
    ModAddMultiple(c.sendSize + c.restSize - c.totalSize, -(k1 + k2), M);
  }

  function FrameSeq(f: Option<Frame>): seq<Frame> {
    if f.Some? then [f.value] else []
  }

  /** The progress after `n` acknowledgements and the frames they caused. */
  datatype Trace = Trace(last: Progress, frames: seq<Frame>)

  /** `n` runs of the download tasklet. */
  function Run(p: Progress, maxFrame: U32, n: nat): (t: Trace)
    ensures |t.frames| <= n
    ensures t.last.check.totalSize == p.check.totalSize
    ensures Balanced32(p.check) ==> Balanced32(t.last.check)
    ensures p.check.copyComplete ==> t.last.check.copyComplete
    decreases n
  {
    if n == 0 then Trace(p, [])
    else
      var s := Step(p, maxFrame);
      StepKeepsBalance32(p, maxFrame);
      var t := Run(s.next, maxFrame, n - 1);
      Trace(t.last, FrameSeq(s.frame) + t.frames)
  }

  /** Tasklet runs never touch the copy_start and boot_complete latches. */
  lemma {:induction false} RunKeepsLatches(p: Progress, maxFrame: U32, n: nat)
    ensures Run(p, maxFrame, n).last.check.copyStart == p.check.copyStart
    ensures Run(p, maxFrame, n).last.check.bootComplete == p.check.bootComplete
    decreases n
  {
    if n > 0 {
      RunKeepsLatches(Step(p, maxFrame).next, maxFrame, n - 1);
    }
  }

  /**
    Reference frame list: frames of the given sizes laid end to end from
    `addr`, with counts running up from `count`.
   */
  function Layout(addr: nat, sizes: seq<nat>, count: U32, tag: U32): (fs: seq<Frame>)
    ensures |fs| == |sizes|
    decreases |sizes|
  {
    if |sizes| == 0 then []
    else [Frame(addr, sizes[0], tag, count)] + Layout(addr + sizes[0], sizes[1..], Wrap32(count + 1), tag)
  }

  function Lens(fs: seq<Frame>): (ls: seq<nat>)
    ensures |ls| == |fs|
    ensures forall k :: 0 <= k < |fs| ==> ls[k] == fs[k].len
  {
    seq(|fs|, k requires 0 <= k < |fs| => fs[k].len)
  }

  lemma LayoutCons(addr: nat, sizes: seq<nat>, count: U32, tag: U32)
    requires |sizes| > 0
    ensures var fs := Layout(addr, sizes, count, tag);
      && fs[0] == Frame(addr, sizes[0], tag, count)
      && fs[1..] == Layout(addr + sizes[0], sizes[1..], Wrap32(count + 1), tag)
  {
  }

  /** Frames of a layout have the given sizes, one tag, consecutive counts and follow each other. */
  lemma {:induction false} LayoutShape(addr: nat, sizes: seq<nat>, count: U32, tag: U32)
    ensures var fs := Layout(addr, sizes, count, tag);
      && Lens(fs) == sizes
      && (|fs| > 0 ==> fs[0].addr == addr)
      && (forall k :: 0 <= k < |fs| ==> fs[k].tag == tag && fs[k].count == Wrap32(count + k))
      && (forall k :: 0 <= k < |fs| - 1 ==> fs[k + 1].addr == fs[k].addr + fs[k].len)
    decreases |sizes|
  {
    if |sizes| > 0 {
      var fs := Layout(addr, sizes, count, tag);
      var tail := Layout(addr + sizes[0], sizes[1..], Wrap32(count + 1), tag);
      LayoutCons(addr, sizes, count, tag);
      LayoutShape(addr + sizes[0], sizes[1..], Wrap32(count + 1), tag);
      forall k | 1 <= k < |fs|
        ensures fs[k] == tail[k - 1]
      {
        assert fs[1..][k - 1] == fs[k];
      }
      forall k | 1 <= k < |fs|
        ensures fs[k].count == Wrap32(count + k)
      {
        Wrap32Shift(count + 1, k - 1);
      }
      assert Lens(fs) == [sizes[0]] + Lens(tail);
    }
  }

  /** A transfer in flight: counters balanced, frame size capped by what is left, not complete. */
  predicate InFlight(p: Progress, maxFrame: U32) {
    && maxFrame > 0
    && Balanced(p.check)
    && p.param.size == Min(p.check.restSize, maxFrame)
    && !p.check.copyComplete
  }

  /** An acknowledgement of a frame that is not the last: the next full-or-final frame goes out. */
  lemma StepInFlight(p: Progress, maxFrame: U32)
    requires InFlight(p, maxFrame) && p.check.restSize > maxFrame
    ensures var s := Step(p, maxFrame);
      && InFlight(s.next, maxFrame)
      && s.next.check.restSize == p.check.restSize - maxFrame
      && s.next.check.totalSize == p.check.totalSize
      && s.next.param.addr == p.param.addr + maxFrame
      && s.next.param.count == Wrap32(p.param.count + 1)
      && s.next.param.tag == p.param.tag
      && s.frame == Some(Frame(s.next.param.addr, s.next.param.size, s.next.param.tag, s.next.param.count))
  {
  }

  /** The acknowledgement of the last frame completes the transfer. */
  lemma StepCompletes(p: Progress, maxFrame: U32)
    requires InFlight(p, maxFrame) && p.check.restSize <= maxFrame
    ensures var s := Step(p, maxFrame);
      && s.frame.None?
      && s.next.check.copyComplete
      && s.next.check.sendSize == p.check.totalSize
      && s.next.check.restSize == 0
      && s.next.param.tag == TagNone
  {
  }

  /** One more acknowledgement: `Run` unfolded at the front. */
  lemma RunUnfold(p: Progress, maxFrame: U32, n: nat)
    requires n > 0
    ensures var s := Step(p, maxFrame);
      Run(p, maxFrame, n) == Trace(Run(s.next, maxFrame, n - 1).last, FrameSeq(s.frame) + Run(s.next, maxFrame, n - 1).frames)
  {
  }

  /**
    From a transfer in flight, one acknowledgement per remaining frame of the
    reference split completes the transfer: the latch is set, every byte is
    counted as sent and the tag is cleared.
   */
  lemma {:induction false} RunInFlightCompletes(p: Progress, maxFrame: U32)
    requires InFlight(p, maxFrame)
    ensures var t := Run(p, maxFrame, |Split(p.check.restSize, maxFrame)|);
      && t.last.check.copyComplete
      && t.last.check.sendSize == p.check.totalSize
      && t.last.check.restSize == 0
      && t.last.param.tag == TagNone
    decreases p.check.restSize
  {
    var n := |Split(p.check.restSize, maxFrame)|;
    var s := Step(p, maxFrame);
    RunUnfold(p, maxFrame, n);
    if p.check.restSize <= maxFrame {
      StepCompletes(p, maxFrame);
      assert n == 1;
    } else {
      StepInFlight(p, maxFrame);
      assert Split(p.check.restSize, maxFrame) == [maxFrame] + Split(p.check.restSize - maxFrame, maxFrame);
      RunInFlightCompletes(s.next, maxFrame);
    }
  }

  /** The frames the remaining acknowledgements send from `p`, as the reference layout has them. */
  predicate SendsRemainingLayout(p: Progress, maxFrame: U32)
    requires maxFrame > 0
  {
    var c := Split(p.check.restSize, maxFrame);
    Run(p, maxFrame, |c|).frames ==
    Layout(p.param.addr + p.param.size, c[1..], Wrap32(p.param.count + 1), p.param.tag)
  }

  /** ... and sends exactly the remaining frames of that split. */
  lemma {:induction false} RunInFlightFrames(p: Progress, maxFrame: U32)
    requires InFlight(p, maxFrame)
    ensures var c := Split(p.check.restSize, maxFrame);
      Run(p, maxFrame, |c|).frames ==
      Layout(p.param.addr + p.param.size, c[1..], Wrap32(p.param.count + 1), p.param.tag)
    decreases p.check.restSize
  {
    if p.check.restSize <= maxFrame {
      LastFrameSendsNothing(p, maxFrame);
    } else {
      StepInFlight(p, maxFrame);
      RunInFlightFrames(Step(p, maxFrame).next, maxFrame);
      NextFrameStartsLayout(p, maxFrame);
    }
  }

  /** Acknowledging the last frame sends nothing more. */
  lemma LastFrameSendsNothing(p: Progress, maxFrame: U32)
    requires InFlight(p, maxFrame) && p.check.restSize <= maxFrame
    ensures SendsRemainingLayout(p, maxFrame)
  {
    var c := Split(p.check.restSize, maxFrame);
    RunUnfold(p, maxFrame, |c|);
    StepCompletes(p, maxFrame);
    assert c == [p.check.restSize];
  }

  /** Acknowledging a frame that is not the last sends the head of the remaining layout. */
  lemma NextFrameStartsLayout(p: Progress, maxFrame: U32)
    requires InFlight(p, maxFrame) && p.check.restSize > maxFrame
    requires SendsRemainingLayout(Step(p, maxFrame).next, maxFrame)
    ensures SendsRemainingLayout(p, maxFrame)
  {
    var c := Split(p.check.restSize, maxFrame);
    var s := Step(p, maxFrame);
    var t := Run(s.next, maxFrame, |c| - 1);
    StepInFlight(p, maxFrame);
    var q := s.next.param;
    var tail := Split(p.check.restSize - maxFrame, maxFrame);
    assert c[1..] == tail && |c| - 1 == |tail| by {
      assert c == [maxFrame] + tail;
    }
    assert Run(p, maxFrame, |c|).frames == FrameSeq(s.frame) + t.frames by {
      RunUnfold(p, maxFrame, |c|);
    }
    var whole := Layout(q.addr, tail, q.count, q.tag);
    assert whole == [Frame(q.addr, q.size, q.tag, q.count)] + whole[1..] by {
      LayoutCons(q.addr, tail, q.count, q.tag);
    }
    LayoutCons(q.addr, tail, q.count, q.tag);
  }

  /** Before the acknowledgement of the last frame, `copy_complete` stays clear. */
  lemma {:induction false} RunInFlightNotEarly(p: Progress, maxFrame: U32, j: nat)
    requires InFlight(p, maxFrame)
    requires j < |Split(p.check.restSize, maxFrame)|
    ensures !Run(p, maxFrame, j).last.check.copyComplete
    decreases j
  {
    if j > 0 && p.check.restSize > maxFrame {
      var s := Step(p, maxFrame);
      RunUnfold(p, maxFrame, j);
      StepInFlight(p, maxFrame);
      assert Split(p.check.restSize, maxFrame) == [maxFrame] + Split(p.check.restSize - maxFrame, maxFrame);
      RunInFlightNotEarly(s.next, maxFrame, j - 1);
    }
  }

  /**
    The frames of a download in which the modem acknowledges every frame: the
    first frame sent by the set-up and those sent by the tasklet runs until the
    image is complete.
   */
  function AckedTransfer(prior: UdlCheck, size: U32, userCount: U32, kind: ImageKind, maxFrame: U32): seq<Frame>
    requires maxFrame > 0
  {
    var b := Begin(prior, size, userCount, kind, maxFrame);
    FrameSeq(b.frame) + Run(b.next, maxFrame, |Split(size, maxFrame)|).frames
  }

  /**
    A whole download, acknowledged frame by frame, sends the reference split:
    after exactly as many acknowledgements as frames, `copy_complete` is set
    (and not earlier), all bytes are counted as sent and the tag is cleared.
   */
  lemma Transfer(prior: UdlCheck, size: U32, userCount: U32, kind: ImageKind, maxFrame: U32)
    requires maxFrame > 0
    ensures var b := Begin(prior, size, userCount, kind, maxFrame);
      var n := |Split(size, maxFrame)|;
      var t := Run(b.next, maxFrame, n);
      && AckedTransfer(prior, size, userCount, kind, maxFrame) ==
         Layout(0, Split(size, maxFrame), FirstCount(kind, userCount), TagCode(kind))
      && t.last.check.copyComplete
      && t.last.check.sendSize == size && t.last.check.restSize == 0
      && t.last.param.tag == TagNone
      && forall j :: 0 <= j < n ==> !Run(b.next, maxFrame, j).last.check.copyComplete
  {
    var b := Begin(prior, size, userCount, kind, maxFrame);
    var c := Split(size, maxFrame);
    assert InFlight(b.next, maxFrame);
    RunInFlightCompletes(b.next, maxFrame);
    RunInFlightFrames(b.next, maxFrame);
    forall j | 0 <= j < |c|
      ensures !Run(b.next, maxFrame, j).last.check.copyComplete
    {
      RunInFlightNotEarly(b.next, maxFrame, j);
    }
    assert c[0] == b.next.param.size;
    assert Layout(0, c, FirstCount(kind, userCount), TagCode(kind)) ==
           [b.frame.value] + Layout(b.next.param.size, c[1..], Wrap32(FirstCount(kind, userCount) + 1), TagCode(kind));
  }

  /**
    The frame list of an acknowledged download, stated without the reference
    split: every frame fits the cap, all but the last are full, the sizes add
    up to the image, the last is the remainder, there are ceil(size / cap) of
    them (one empty frame for an empty image), the frames tile the image from
    offset 0, and the counts run up by one from the first count.
   */
  lemma AckedTransferFrames(prior: UdlCheck, size: U32, userCount: U32, kind: ImageKind, maxFrame: U32)
    requires maxFrame > 0
    ensures var fs := AckedTransfer(prior, size, userCount, kind, maxFrame);
      && (size > 0 ==> |fs| == (size + maxFrame - 1) / maxFrame)
      && (size == 0 ==> |fs| == 1)
      && Sum(Lens(fs)) == size
      && (forall k :: 0 <= k < |fs| ==> fs[k].len <= maxFrame)
      && (forall k :: 0 <= k < |fs| - 1 ==> fs[k].len == maxFrame)
      && fs[|fs| - 1].len == (if size % maxFrame == 0 && size > 0 then maxFrame else size % maxFrame)
      && fs[0].addr == 0
      && (forall k :: 0 <= k < |fs| - 1 ==> fs[k + 1].addr == fs[k].addr + fs[k].len)
      && (forall k :: 0 <= k < |fs| ==> fs[k].tag == TagCode(kind))
      && (forall k :: 0 <= k < |fs| ==> fs[k].count == Wrap32(FirstCount(kind, userCount) + k))
  {
    Transfer(prior, size, userCount, kind, maxFrame);
    SplitLayoutSizes(size, maxFrame, FirstCount(kind, userCount), TagCode(kind));
    LayoutShape(0, Split(size, maxFrame), FirstCount(kind, userCount), TagCode(kind));
  }

  /** The frame sizes of a layout over the reference split. */
  lemma SplitLayoutSizes(size: nat, maxFrame: nat, count: U32, tag: U32)
    requires maxFrame > 0
    ensures var fs := Layout(0, Split(size, maxFrame), count, tag);
      && (size > 0 ==> |fs| == (size + maxFrame - 1) / maxFrame)
      && (size == 0 ==> |fs| == 1)
      && Sum(Lens(fs)) == size
      && (forall k :: 0 <= k < |fs| ==> fs[k].len <= maxFrame)
      && (forall k :: 0 <= k < |fs| - 1 ==> fs[k].len == maxFrame)
      && fs[|fs| - 1].len == (if size % maxFrame == 0 && size > 0 then maxFrame else size % maxFrame)
  {
    var c := Split(size, maxFrame);
    var fs := Layout(0, c, count, tag);
    assert Lens(fs) == c && forall k :: 0 <= k < |fs| ==> fs[k].len == c[k] by {
      LayoutShape(0, c, count, tag);
    }
    assert Sum(c) == size by {
      SplitSum(size, maxFrame);
    }
    assert |c| == (if size > 0 then (size + maxFrame - 1) / maxFrame else 1) by {
      SplitCount(size, maxFrame);
    }
    assert c[|c| - 1] == (if size % maxFrame == 0 && size > 0 then maxFrame else size % maxFrame) by {
      SplitLast(size, maxFrame);
    }
    SplitShape(size, maxFrame);
  }

  /**
    On the wire the size, tag and count fields are 16 bits wide: the count
    field of frame `k` reads (first count + k) modulo 2^16.
   */
  lemma WireCountsConsecutive(prior: UdlCheck, size: U32, userCount: U32, kind: ImageKind, maxFrame: U32, k: nat)
    requires maxFrame > 0
    requires k < |AckedTransfer(prior, size, userCount, kind, maxFrame)|
    ensures Trunc16(AckedTransfer(prior, size, userCount, kind, maxFrame)[k].count) ==
            (FirstCount(kind, userCount) + k) % 0x1_0000
  {
    AckedTransferFrames(prior, size, userCount, kind, maxFrame);
    Trunc16OfWrap32(FirstCount(kind, userCount) + k);
  }

  /**
    The sequencer never trips the size guard of `_qc_do_download`: while a
    transfer is in flight, the frame it describes fits the cap.
   */
  lemma InFlightFrameFits(p: Progress, maxFrame: U32)
    requires InFlight(p, maxFrame)
    ensures DoDownload(p.param, maxFrame).Some?
    ensures !Finishes(p) ==> Step(p, maxFrame).frame.Some? && InFlight(Step(p, maxFrame).next, maxFrame)
  {
  }

  /**
    The 16-bit size and tag registers carry each frame's length and tag
    exactly when the frame cap fits in 16 bits; only the count wraps.
   */
  lemma WireSizeAndTagExact(prior: UdlCheck, size: U32, userCount: U32, kind: ImageKind, maxFrame: U32, k: nat)
    requires 0 < maxFrame < 0x1_0000
    requires k < |AckedTransfer(prior, size, userCount, kind, maxFrame)|
    ensures var f := AckedTransfer(prior, size, userCount, kind, maxFrame)[k];
      Trunc16(f.len) == f.len && Trunc16(f.tag) == f.tag
  {
    AckedTransferFrames(prior, size, userCount, kind, maxFrame);
  }

  /**
    An acknowledgement that arrives after completion sends nothing, keeps the
    latch set and the tag clear, but moves the counters: `rest_size` wraps
    below zero, so only the balance modulo 2^32 survives.
   */
  lemma StrayAckAfterCompletion(p: Progress, maxFrame: U32)
    requires p.check.copyComplete && p.check.sendSize == p.check.totalSize
    requires p.check.sendSize + p.param.size < 0x1_0000_0000
    ensures Step(p, maxFrame).frame.None?
    ensures Step(p, maxFrame).next.check.copyComplete
    ensures Step(p, maxFrame).next.param.tag == TagNone
    ensures Balanced32(p.check) ==> Balanced32(Step(p, maxFrame).next.check)
    ensures p.check.restSize == 0 && 0 < p.param.size ==>
            Step(p, maxFrame).next.check.restSize == 0x1_0000_0000 - p.param.size
  {
    StepKeepsBalance32(p, maxFrame);
  }

  /** Worked transfer under a 1024-byte cap: a 4096-byte image goes out as four full frames. */
  lemma ExampleFullFrames(prior: UdlCheck, userCount: U32, kind: ImageKind)
    ensures Lens(AckedTransfer(prior, 4096, userCount, kind, 1024)) == [1024, 1024, 1024, 1024]
  {
    var c := Split(4096, 1024);
    assert c == [1024, 1024, 1024, 1024] by {
      assert Split(1024, 1024) == [1024];
      assert Split(2048, 1024) == [1024, 1024];
      assert Split(3072, 1024) == [1024, 1024, 1024];
    }
    Transfer(prior, 4096, userCount, kind, 1024);
    LayoutShape(0, c, FirstCount(kind, userCount), TagCode(kind));
  }

  /** Worked transfer under a 1024-byte cap: a 1500-byte image goes out as 1024 bytes, then 476. */
  lemma ExampleShortLastFrame(prior: UdlCheck, userCount: U32, kind: ImageKind)
    ensures Lens(AckedTransfer(prior, 1500, userCount, kind, 1024)) == [1024, 476]
  {
    var c := Split(1500, 1024);
    assert c == [1024, 476] by {
      assert Split(476, 1024) == [476];
    }
    Transfer(prior, 1500, userCount, kind, 1024);
    LayoutShape(0, c, FirstCount(kind, userCount), TagCode(kind));
  }
}
